=== FILE: README.md ===
# nb2pb translation core, modelled in Dafny

nb2pb translates a NetsBlox project into a PyBlox project. PyBlox is a
Python-based dialect with a `snap` runtime. This project models the
translation core in `src/lib.rs`. It takes the project after XML parsing
and stops before JSON serialisation. The model covers:

- **Identifiers** (`Idents`): `is_py_ident`, the anchored regular expression
  `^[_a-zA-Z][_a-zA-Z0-9]*$`, run as a three-state automaton.
- **Expression lowering** (`Exprs`):
  - `fmt_comment`, the `Type` tag (`Unknown`/`Wrapped`), `wrap` and `translate_var`;
  - `translate_value`, `translate_kwargs`, `translate_rpc` and `translate_fn_call`;
  - every case of `translate_expr`, which turns a block expression into Python
    text plus a tag saying whether the text is already a `snap.wrap`ped value;
  - the variadic peephole for a literal list operand;
  - the errors `Upvars`, `RingTypeQuery` and `UnsupportedExpr`.
- **Statement lowering** (`Stmts`): every statement kind `translate_stmts`
  handles, the `pass` of an empty body, one line per declared local, the
  four-space indentation of bodies, and the `Goto` pair peephole.
- **Hat lowering** (`Hats`): `SpriteInfo::translate_hat`. The handler of the
  n-th kept script is numbered n + 1. Errors are `AnyMessage` and `UnsupportedHat`.
- **Assembly** (`Assembly`): the role loop of `translate`:
  - every entity's costumes, fields and hatted scripts are collected, and
    hatless scripts are skipped;
  - the global editor starts with `from netsblox import snap\n\n`;
  - one editor follows per entity: the first entity is the stage, the others
    are turtles, and only turtles get the pose lines;
  - the image table follows;
  - a project without roles gives `NoRoles`.

The three `*Facts` modules state the properties that relate several calls or
compare an operation with an independent definition:

- `ExprFacts`: wrap round trip, variable round trip, tag rules, variadic
  peephole, keyword-argument partition as a filter.
- `StmtFacts`: entry counts, wrapped right-hand sides, indentation, pen colour
  round trip.
- `AssemblyFacts`: hatless scripts skipped, handler numbering, editor order
  and contents, image keys.

Modelling conventions:

- Lowering returns `Res<T>`, which is `Ok(value)` or `Err(TranslateError)`.
- The source's panics (`unreachable!`, `unimplemented!`, `panic!`, an
  `unwrap` that can fail) are not errors. Each becomes a `Supported*`
  precondition that excludes the panicking input. A part the translator
  never lowers is not constrained: the body of a script without a hat may
  hold anything.
- `Translatable`, `StmtTranslatable`, `HatTranslatable` and the like are
  independent ghost predicates. They say from the AST alone when lowering
  succeeds, and every lowering function's contract states the if-and-only-if
  against them.
- The stage a role's code refers to is the translated name of the role's
  first entity. The source keeps that entity's record in a write-once cell.

Behaviour of `src/lib.rs` worth noting:

- An `OnClone` hat is not matched by `translate_hat`, so it yields
  `UnsupportedHat`.
- There is no `elif` peephole: an `IfElse` always writes `else:` followed by
  the indented else-body.
- `Think` lowers exactly like `Say`.
- No statement yields `UnsupportedStmt`: an unmatched statement kind panics.

## Model

| member | source | states |
|---|---|---|
| Idents.IsPyIdentIffShape | src/lib.rs:21-26 | the identifier test accepts a string exactly when it is non-empty, starts with `_` or an ASCII letter, and continues with `_`, letters or digits (both directions) |
| Idents.IdentExamples | src/lib.rs:27-32 | `fooBar_23` is an identifier; `34hello` and `hello world` are not |
| Idents.IdentHasNoPunctuation | src/lib.rs:21-26 | every character of an accepted identifier is a letter, digit or underscore |
| Text.Decimal | src/lib.rs:469-474 | the `{}` rendering of a handler index is a non-empty digit string without a leading zero unless the number is 0 |
| Text.DecimalRoundTrip | src/lib.rs:469-474 | reading the rendered digits back gives the number |
| Text.DecimalInjective | src/lib.rs:469-474 | different indices render differently |
| Text.Hex2 | src/lib.rs:414 | `{:02x}` of a byte is two lower-case hexadecimal digits that read back as the byte |
| Idents.IsPyIdent | src/lib.rs:21-26 | no contract of its own: the three-state automaton whose meaning `Idents.IsPyIdentIffShape` states |
| Exprs.FmtComment | src/lib.rs:49-54 | no contract of its own: `ExprFacts.FmtCommentOneLine` and `ExprFacts.FmtCommentLineBreak` state what it renders |
| Exprs.Wrap | src/lib.rs:61-66 | no contract of its own: `ExprFacts.WrapOnlyUnknown` and `ExprFacts.WrapRoundTrip` state what it does |
| Exprs.TranslateVar | src/lib.rs:68-74 | no contract of its own: `ExprFacts.VarRoundTrip` decodes its text back, `ExprFacts.VarLoweringInjective` keeps references apart |
| Exprs.Partition | src/lib.rs:104-113 | no contract of its own: `ExprFacts.PartitionIsFilter` and `ExprFacts.PartitionSize` state the split |
| Exprs.KwargsText | src/lib.rs:115-120 | no contract of its own: `ExprFacts.KwargsShape`, `ExprFacts.KwargsEmpty`, `ExprFacts.AllIdentifiers` and `ExprFacts.NoIdentifiers` state the four arrangements |
| Exprs.TranslateExpr | src/lib.rs:137-304 | lowering succeeds exactly when the expression is translatable; the only errors are `Upvars`, `RingTypeQuery` and `UnsupportedExpr`; an `UnsupportedExpr` carries a sub-expression of the input |
| Exprs.TranslateCall | src/lib.rs:276-280 | an RPC or function call expression lowers exactly when its arguments do and its function call has no upvars, with the same error guarantees |
| Exprs.TranslateOperator | src/lib.rs:145-275 | an operator expression lowers exactly when its operands do, with the same error guarantees |
| Exprs.TranslateExprs | src/lib.rs:150-153 | a list of expressions lowers exactly when each element does; the result has one entry per element, equal to that element's lowering; a refused node comes from some element |
| Exprs.TranslateKwargValues | src/lib.rs:106-113 | the keyword values lower exactly when each does, one result per keyword, each equal to that value's lowering |
| Exprs.TranslateKwargs | src/lib.rs:103-121 | keyword arguments lower exactly when every value does; errors are expression errors from some value |
| Exprs.TranslateRpc | src/lib.rs:122-125 | an RPC call lowers exactly when every keyword value does |
| Exprs.TranslateFnCall | src/lib.rs:126-136 | a function call lowers exactly when every argument does |
| ExprFacts.WrapOnlyUnknown | src/lib.rs:61-66 | `wrap` leaves text unchanged exactly when it is tagged `Wrapped` |
| ExprFacts.WrapRoundTrip | src/lib.rs:61-66 | stripping one `snap.wrap(…)` layer from the wrapped text gives back the lowered text |
| ExprFacts.VarRoundTrip | src/lib.rs:68-74 | decoding the lowered variable reference (bare, `self.` or `globals()['…']`) recovers its name and location |
| ExprFacts.VarLoweringInjective | src/lib.rs:68-74 | two references with identifier names lower to the same text only when they are the same reference |
| Exprs.TranslateValue | src/lib.rs:83-102 | a literal value is tagged `Wrapped` exactly when it is a boolean |
| ExprFacts.ListLiteralAsMakeList | src/lib.rs:93-99 | a literal list never fails and is written exactly as the list expression of its elements: bracketed, comma-separated element texts, tagged `Unknown` |
| ExprFacts.ReferencesWrapped | src/lib.rs:140-143 | variables, `self` and entity references lower to their names and are tagged `Wrapped` |
| ExprFacts.UnaryTag | src/lib.rs:155-274 | a one-operand operator with a translatable operand lowers, and is tagged `Unknown` exactly for list and text length |
| ExprFacts.BinaryTag | src/lib.rs:160-268 | a two-operand operator with translatable operands lowers and is tagged `Wrapped` |
| ExprFacts.ConditionalTag | src/lib.rs:209-212 | a conditional is `(then if wrap(cond) else otherwise)`, tagged `Wrapped` exactly when both branches are |
| ExprFacts.VariadicOverLiteral | src/lib.rs:162-264 | sum, product, list concatenation and text concatenation over a literal list always lower, to the literal-list form |
| ExprFacts.VariadicEmptyIdentity | src/lib.rs:162-264 | over an empty literal list the four operators give `0`, `1`, `[]` and `''`, tagged `Unknown` |
| ExprFacts.VariadicChain | src/lib.rs:162-264 | over a non-empty literal list, a sum is `(a + b + …)` and a product `(a * b * …)` of the wrapped elements, tagged `Wrapped`; a text concatenation is `(str(a) + str(b) + …)` and a list concatenation `[*a, *b, …]`, both tagged `Unknown` |
| ExprFacts.WrappedValue | src/lib.rs:93-99 | a wrapped literal value is `True`, `False` or a `snap.wrap(` call, and a boolean is exactly `True` or `False` |
| ExprFacts.ChainTerms | src/lib.rs:162-264 | the chain has one element per list element, in order: the wrapped value for sums and products, `str(` of it for text, the splatted value for lists |
| ExprFacts.VariadicOverOther | src/lib.rs:162-264 | over any other operand the operator is a reduction call on the operand's lowering |
| ExprFacts.FmtCommentOneLine | src/lib.rs:49-54 | a rendered comment has no newline, starts with ` # ` when present, and is empty exactly when absent; a one-line comment is ` # ` followed by the comment itself, and every newline adds three characters |
| ExprFacts.FmtCommentLineBreak | src/lib.rs:49-54 | a newline in a comment becomes ` -- ` in place, between the rendering of the text before it and that of the text after it |
| ExprFacts.GroupsSnoc | src/lib.rs:106-113 | appending one keyword adds it to the identifier group or to the dictionary group, never both |
| ExprFacts.PartitionIsFilter | src/lib.rs:106-113 | the partition loop equals the two order-preserving filters by `is_py_ident` |
| ExprFacts.PartitionSize | src/lib.rs:106-113 | every keyword lands in exactly one group |
| ExprFacts.AllIdentifiers | src/lib.rs:106-120 | when every name is an identifier, all keywords are `name = value` entries in order and the dictionary group is empty |
| ExprFacts.NoIdentifiers | src/lib.rs:106-120 | when no name is an identifier, all keywords are `'name': value` dictionary entries in order |
| ExprFacts.KwargsEmpty | src/lib.rs:115-120 | the keyword text is empty exactly when there are no keywords |
| ExprFacts.KwargsShape | src/lib.rs:103-121 | the keyword text is the prefix, the identifier entries, then `**{ … }` of the others, in the four arrangements the match chooses |
| ExprFacts.UpvarsRefused | src/lib.rs:277-280 | a function-call expression with upvars is refused with `Upvars` |
| ExprFacts.RingQueryRefused | src/lib.rs:237-246 | a type query for a command, reporter or predicate ring is refused with `RingTypeQuery` |
| ExprFacts.UnsupportedCarriesNode | src/lib.rs:302 | an unmatched expression is refused with `UnsupportedExpr` carrying that very node |
| Stmts.TranslateStmts | src/lib.rs:305-422 | a body lowers exactly when every statement does; errors are expression errors |
| Stmts.StmtLines | src/lib.rs:308-421 | the statement lines are produced exactly when every statement lowers |
| Stmts.StmtEntry | src/lib.rs:310-418 | one statement lowers exactly when it is translatable, and a statement other than a declaration gives one entry |
| Stmts.SimpleEntry | src/lib.rs:312-409 | a one-line statement lowers exactly when its expressions do |
| Stmts.Block | src/lib.rs:315-354 | a compound statement's body lowers exactly when its statements do |
| Stmts.ControlEntry | src/lib.rs:315-354 | warp, conditionals and loops lower exactly when their conditions, bounds and bodies do |
| Stmts.MotionEntry | src/lib.rs:363-408 | motion statements lower exactly when their expressions do |
| Stmts.LooksEntry | src/lib.rs:355-416 | costume, visibility, say/think and size statements lower exactly when their expressions do |
| Stmts.SayLine | src/lib.rs:386-389 | say/think lowers exactly when its content and, if given, its duration do |
| Stmts.PenEntry | src/lib.rs:398-414 | pen statements lower exactly when their expressions do |
| Stmts.ListEntry | src/lib.rs:314-397 | list statements lower exactly when their expressions do |
| Stmts.MessageEntry | src/lib.rs:373-385 | message sends lower exactly when their target, type and keyword values do |
| Stmts.WaitEntry | src/lib.rs:401-403 | wait-until and sleep lower exactly when their expressions do |
| StmtFacts.StmtLinesCount | src/lib.rs:308-421 | a translatable body yields one line per declared local plus one per other statement |
| StmtFacts.StmtsJoined | src/lib.rs:305-421 | a non-empty translatable body is its entries joined by newlines |
| StmtFacts.StmtLinesCons | src/lib.rs:308-421 | the entries of a body are the first statement's entries followed by the rest's |
| StmtFacts.StmtEntriesInPlace | src/lib.rs:308-421 | the entries of statement i come, in order, right after the entries of the statements before it (counted by `EntryCount`) |
| StmtFacts.EmptyBodies | src/lib.rs:305-311 | an empty body is `pass`; a non-empty body of empty declarations only is the empty text |
| StmtFacts.DeclarationLines | src/lib.rs:311 | a declaration yields `name = snap.wrap(0)` for each variable, in order, without its comment |
| StmtFacts.AssignWrapped | src/lib.rs:312 | an assignment always wraps its right-hand side and ends with the comment |
| StmtFacts.AddAssignWrapped | src/lib.rs:313 | an in-place addition always wraps its right-hand side |
| StmtFacts.ReturnWrapped | src/lib.rs:409 | a return always wraps its value |
| StmtFacts.UpvarsStatement | src/lib.rs:390-393 | a function-call statement with upvars is refused with `Upvars` |
| StmtFacts.GotoPair | src/lib.rs:369-372 | a goto to a literal pair writes `self.pos = (x, y)` from the two values and never fails |
| StmtFacts.ColorHexDigits | src/lib.rs:414 | the written colour is `#` and six lower-case hexadecimal digits that read back as red, green and blue |
| StmtFacts.PenColorLine | src/lib.rs:414 | a pen colour statement assigns the quoted colour text, then the comment |
| StmtFacts.ThinkAsSay | src/lib.rs:386-389 | think lowers exactly as say |
| StmtFacts.LocalMessageLiteral | src/lib.rs:373-381 | a local message with a literal type is sent under `local::` without lowering the type as an expression |
| StmtFacts.BlockIndented | src/lib.rs:315-354 | a compound statement is its header line followed by the body with four spaces after every newline, same number of lines |
| Hats.Decorator | src/lib.rs:467-506 | the decorator lowers exactly when the hat is translatable; `AnyMessage` for a local message without type, `UnsupportedHat` carrying the hat for other kinds; it starts with `@` |
| Hats.EventCall | src/lib.rs:469-474 | no contract of its own: `Hats.DecoratorEvents` gives each text and `Hats.EventCallsDistinct` keeps them apart |
| Hats.MessageKey | src/lib.rs:492-497 | no contract of its own: `Hats.DecoratorEvents` gives each text and `Hats.DecoratorsBindEvents` compares by it |
| Hats.DecoratorEvents | src/lib.rs:469-497 | the event each hat binds, then its comment and a newline: `@onstart()`, `@onkey('<key>')`, `@onmouse('down')`, `'up'`, `'scroll-down'`, `'scroll-up'`, and `@nb.on_message('local::<type>')` or `@nb.on_message('<name>')` with the name escaped |
| Hats.EventCallsDistinct | src/lib.rs:469-474 | two user-event decorator calls are equal exactly when the events are: the same kind, and the same key |
| Hats.DecoratorsBindEvents | src/lib.rs:469-497 | two translatable hats other than `When` with the same comment get the same decorator exactly when they bind the same user event or the same (namespaced, escaped) message |
| Hats.TranslateHat | src/lib.rs:467-506 | the same success condition and errors, and the header ends with the numbered `def` line and the field prologue its body attaches to |
| Hats.HandlerName | src/lib.rs:469-497 | no contract of its own: `Hats.HandlerNamesDistinct` keeps the names apart and `AssemblyFacts.KeptScriptHandler` numbers them |
| Hats.Poller | src/lib.rs:475-491 | no contract of its own: `Hats.WhenHatPolls` and `Hats.PollerNameFree` state what the poller calls and why its name is free |
| Hats.WhenDecorator | src/lib.rs:475-491 | the decorator of a `When` hat with a translatable condition is the poller over the wrapped lowered condition, with the script's index |
| Hats.WhenHatPolls | src/lib.rs:475-491 | a `When` hat's header is the poller followed by `def my_oncondition<idx>(self):`, the very handler the poller calls |
| Hats.PollerNameFree | src/lib.rs:469-477 | the poller's start handler `my_onstart<idx>` never has the name of a green-flag handler `my_onstart_<k>` |
| Hats.HandlerNamesDistinct | src/lib.rs:469-497 | two handler names are equal only for the same hat family and the same script index |
| Assembly.Costumes | src/lib.rs:526-532 | one `(name, content)` pair per costume, in order |
| Assembly.Initialisers | src/lib.rs:533-536 | one pair per field, in order, keyed by the field's name, valued by the wrapped lowering of its initial value |
| AssemblyFacts.InitialisersWrapped | src/lib.rs:533-536 | every field and global starts as `True`, `False` or a `snap.wrap(` call of its value |
| Assembly.ScriptText | src/lib.rs:538-544 | a hatted script lowers exactly when its hat and body do; its body need only be supported when the hat lowers, since a failing hat returns before the body is read |
| Assembly.CollectScripts | src/lib.rs:537-545 | the scripts collect exactly when every hatted one lowers, adding one text per kept script |
| Assembly.CollectScriptsPrefix | src/lib.rs:537-545 | collecting keeps the texts collected before |
| Assembly.CollectScriptsNumbering | src/lib.rs:537-545 | the j-th kept script is collected at position `|acc| + j` and numbered by it, so its handler index is the collected count plus one |
| Assembly.TranslateSprite | src/lib.rs:522-546 | an entity collects exactly when its hatted scripts lower; name, functions, costumes and active costume carry over; the fields are the initialisers of the entity's fields; one script text per kept script |
| Assembly.CollectSprites | src/lib.rs:522-547 | the entities collect exactly when each does, one record per entity with its name and functions, in order |
| Assembly.FuncDefs | src/lib.rs:558-562 | the function definitions lower exactly when every function body does |
| Assembly.GlobalText | src/lib.rs:551-562 | the global editor text lowers exactly when the global functions do, and starts with `from netsblox import snap\n\n` followed by one `name = value` line per global; it demands only plain global values and supported function bodies |
| Assembly.SpriteText | src/lib.rs:569-608 | an entity's editor text lowers exactly when its functions do |
| Assembly.SpriteTexts | src/lib.rs:569-615 | the editor texts lower exactly when every entity's functions do, one per entity |
| Assembly.SpriteEditors | src/lib.rs:610-614 | entity editor i has that entity's name and text, and is the stage for i = 0 and a turtle otherwise |
| Assembly.TranslateRole | src/lib.rs:517-636 | a role translates exactly when its entities and functions do; name and stage size carry over; one editor per entity after the global one |
| Assembly.TranslateRoles | src/lib.rs:517-637 | the roles translate exactly when each does, one output per role |
| Assembly.Translate | src/lib.rs:512-645 | `NoRoles` exactly for a project without roles; otherwise success exactly when every role translates, with the project name and one output per role |
| AssemblyFacts.HatlessSkipped | src/lib.rs:537-541 | collecting the scripts equals collecting only the hatted ones |
| AssemblyFacts.HattedMembers | src/lib.rs:537-541 | the kept scripts are exactly the scripts with a hat (both directions) |
| AssemblyFacts.HattedPlaces | src/lib.rs:537-541 | as many scripts are kept as there are hats, and a hatted script at position i is kept at the position given by the number of hatted scripts before it, so the order is preserved |
| AssemblyFacts.HattedExtremes | src/lib.rs:537-541 | every script is kept exactly when all have hats, none exactly when none has |
| AssemblyFacts.ScriptLayout | src/lib.rs:538-544 | a kept script's text is its hat header followed by its indented body, and the header ends with its `def` line |
| AssemblyFacts.KeptScriptHandler | src/lib.rs:537-545 | an entity's j-th script text is the j-th hatted script lowered with index j |
| AssemblyFacts.KeptHandlersDistinct | src/lib.rs:537-545 | the handlers of an entity's kept scripts have pairwise distinct names |
| AssemblyFacts.CollectSpritesAt | src/lib.rs:522-547 | the i-th collected record is the i-th entity's |
| AssemblyFacts.SpriteTextsAt | src/lib.rs:569-615 | the i-th editor text is written for entity i |
| AssemblyFacts.TranslateRolesAt | src/lib.rs:517-637 | the i-th role output is the i-th role translated on its own |
| AssemblyFacts.ProjectRoles | src/lib.rs:512-645 | every role of a translated project is its role translated on its own, in order |
| AssemblyFacts.RoleFixedFields | src/lib.rs:624-635 | every translated role has the default block source, empty global, stage and turtle block lists, and the `time` and `math` imports |
| AssemblyFacts.ProjectShowsBlocks | src/lib.rs:639-642 | a translated project always shows its blocks |
| AssemblyFacts.RoleEditors | src/lib.rs:549-615 | the editors are the global editor followed by one editor per entity |
| AssemblyFacts.RoleImageTable | src/lib.rs:617-622 | the image table is built from the collected entities |
| AssemblyFacts.EditorOrder | src/lib.rs:569-614 | editor i + 1 is the stage's for i = 0 and a turtle's otherwise, named after entity i |
| AssemblyFacts.GlobalEditorText | src/lib.rs:551-552 | the global editor's text starts with `from netsblox import snap\n\n` |
| AssemblyFacts.EditorIsSpriteText | src/lib.rs:569-614 | editor i + 1 holds the i-th entity editor text |
| AssemblyFacts.EditorText | src/lib.rs:569-614 | editor i + 1 holds the text written for entity i's collected record at position i |
| AssemblyFacts.PoseOnlyForTurtles | src/lib.rs:585-597 | the constructor writes the pose lines exactly for a non-stage entity, before the costume line |
| AssemblyFacts.SpriteConstructor | src/lib.rs:572-597 | the constructor follows the costume table and field lines in the entity text |
| AssemblyFacts.ImagesFromKeys | src/lib.rs:617-622 | the image table's keys are the `<entity>_cst_<costume>` keys of every costume |
| AssemblyFacts.RoleImages | src/lib.rs:617-622 | a role's image keys are exactly those of its collected costumes |
| AssemblyFacts.CostumeImagePresent | src/lib.rs:617-622 | every costume of every entity has its image key in the role's image table |

## Left out

- XML parsing (`Parser::parse`) and its `ParseError`: the model starts from the parsed project, a datatype in `Ast`.
- JSON serialisation: a role's output is a `RoleOut` datatype and the project's a `ProjectOut`. Each JSON field is a datatype field of the same meaning (`stage_size` is `stageSize`, `show_blocks` is `showBlocks`); the JSON text and its key spelling are not modelled.
- `src/main.rs` and `src/python.rs` (command line and Python binding): I/O around `translate`, not part of this model.
- `escape` and the `Display` of `f64` are uninterpreted functions (`Text.Escape`, `Text.NumText`): they come from outside `src/lib.rs`, and no property here depends on their output.
- `indent` also comes from outside `src/lib.rs`. It is modelled as four spaces at the start and after every newline. That is its behaviour on the texts produced here, stated as an assumption.
- Panics become preconditions rather than errors, because the source does not return them. The panicking inputs are:
  - image and reference literals in `translate_value`;
  - a local send with a target or a wait;
  - the statement catch-all;
  - a non-string costume;
  - an active costume out of range;
  - globals or functions in a role without entities.
- The translator stops at the first error, so it never reaches a panic behind it. The preconditions still demand that every part be panic-free, also a part after the first error. For example, `CollectScripts` asks for a supported body even in a hatted script whose hat fails, and for every script after one that fails. Only `ScriptText` drops that demand for its own body.
- `UnsupportedStmt` is part of the error type but is never produced: an unmatched statement kind panics.
- Hats.DecoratorsBindEvents: compares message hats by their escaped, namespaced name, not by the message itself, because `escape` is not part of this model.
- Stmts.TranslateStmts: the contract states when lowering succeeds and which errors it reports. The text of a body is stated by `StmtFacts.StmtsJoined` and `StmtFacts.StmtEntriesInPlace` (its entries in order, joined by newlines); the entry of each statement kind is stated by the other `StmtFacts` lemmas only where they say so.
- Stmts.StmtLines: states success and errors only; the line count is `StmtFacts.StmtLinesCount` and the order is `StmtFacts.StmtLinesCons` and `StmtFacts.StmtEntriesInPlace`.
- Stmts.StmtEntry: states success, errors and that a statement other than a declaration gives one entry only (an entry of a compound statement spans several lines); the text of each kind follows the source's template, and the wrapped cases are stated by `StmtFacts`.
- Stmts.SimpleEntry: states success and errors only, not the line text.
- Stmts.Block: states success and errors only; the layout is `StmtFacts.BlockIndented`.
- Stmts.ControlEntry: states success and errors only, not the header texts.
- Stmts.MotionEntry: states success and errors only; the pair peephole is `StmtFacts.GotoPair`.
- Stmts.LooksEntry: states success and errors only; `StmtFacts.ThinkAsSay` relates think to say.
- Stmts.SayLine: states success and errors only, not the `self.say` text.
- Stmts.PenEntry: states success and errors only; the colour is `StmtFacts.PenColorLine` and `StmtFacts.ColorHexDigits`.
- Stmts.ListEntry: states success and errors only, not the list method texts.
- Stmts.MessageEntry: states success and errors only; the literal local message is `StmtFacts.LocalMessageLiteral`.
- Stmts.WaitEntry: states success and errors only, not the polling and sleep texts.
- Exprs.TranslateCall: states success and errors only; the upvars refusal is `ExprFacts.UpvarsRefused`.
- Exprs.TranslateOperator: states success and errors only; the tags are stated by the `ExprFacts` tag lemmas.
- Exprs.TranslateKwargs: states success and errors only; the text is `ExprFacts.KwargsShape`.
- Exprs.TranslateRpc: states success and errors only, not the `nothrow(nb.call)` text.
- Exprs.TranslateFnCall: states success and errors only, not the call text.
- Assembly.SpriteText: states success and errors only; its parts are `AssemblyFacts.SpriteConstructor` and `AssemblyFacts.PoseOnlyForTurtles`.
- Assembly.FuncDefs: states success and errors only, not the `def` texts.
- Numbers (`f64`) are kept as bit patterns (`Text.Float`), because the translator only prints them.

=== FILE: assembly.dfy ===
/** Assembly of a project's roles (`translate` in src/lib.rs, without the
    XML parse before it and the JSON rendering after it). For each role the
    translator first collects every entity's costumes, fields and hatted
    scripts, then writes the global editor, one editor per entity (the
    first entity is the stage) and the image table. */
module Assembly {
  import opened Wrappers
  import opened Text
  import opened Ast
  import opened Exprs
  import opened Stmts
  import opened Hats

  /** What the translator keeps of an entity between collecting it and
      writing its editor. */
  datatype SpriteInfo = SpriteInfo(
    name: string,
    scripts: seq<string>,
    fields: seq<(string, string)>,
    funcs: seq<Function>,
    costumes: seq<(string, string)>,
    activeCostume: Option<nat>,
    visible: bool,
    color: Color,
    pos: (Float, Float),
    heading: Float,
    scale: Float)

  datatype EditorKind = GlobalEditor | StageEditor | TurtleEditor

  datatype Editor = Editor(kind: EditorKind, name: string, value: string)

  /** The custom block lists of the global, stage and turtle scopes. */
  datatype Blocks = Blocks(global: seq<string>, stage: seq<string>, turtle: seq<string>)

  /** A translated role: the fields of its JSON object (`name`,
      `stage_size`, `block_sources`, `blocks`, `imports`, `editors`,
      `images`). */
  datatype RoleOut = RoleOut(
    name: string,
    stageSize: Option<(nat, nat)>,
    blockSources: seq<string>,
    blocks: Blocks,
    imports: seq<string>,
    editors: seq<Editor>,
    images: map<string, string>)

  /** The project name, returned beside the JSON, and the JSON's
      `show_blocks` and `roles` fields. */
  datatype ProjectOut = ProjectOut(name: string, showBlocks: bool, roles: seq<RoleOut>)

  const DefaultBlocks := "netsblox://assets/default-blocks.json"

  /** The Python name of the stage: the role's first entity. */
  function StageName(r: Role): string
  {
    if |r.entities| > 0 then r.entities[0].transName else ""
  }

  /** Costume names with their image payloads. */
  function Costumes(e: Entity): (r: seq<(string, string)>)
    requires forall i :: 0 <= i < |e.costumes| ==> e.costumes[i].init.String?
    ensures |r| == |e.costumes|
    ensures forall i :: 0 <= i < |r| ==> r[i] == (e.costumes[i].transName, e.costumes[i].init.s)
  {
    seq(|e.costumes|, i requires 0 <= i < |e.costumes| => (e.costumes[i].transName, e.costumes[i].init.s))
  }

  /** Declared names with their wrapped initial values. */
  function Initialisers(ds: seq<VarDecl>): (r: seq<(string, string)>)
    requires forall i :: 0 <= i < |ds| ==> PlainValue(ds[i].init)
    ensures |r| == |ds|
    ensures forall i :: 0 <= i < |r| ==> r[i].0 == ds[i].transName
    ensures forall i :: 0 <= i < |r| ==> r[i].1 == Wrap(TranslateValue(ds[i].init))
  {
    seq(|ds|, i requires 0 <= i < |ds| => (ds[i].transName, Wrap(TranslateValue(ds[i].init))))
  }

  /** One `name = value` line per pair. */
  function Assignments(pairs: seq<(string, string)>): string
  {
    if |pairs| == 0 then ""
    else pairs[0].0 + " = " + pairs[0].1 + "\n" + Assignments(pairs[1..])
  }

  ghost predicate ScriptTranslatable(s: Script)
  {
    s.hat.Some? ==> HatTranslatable(s.hat.value) && AllTranslatable(s.stmts)
  }

  /** The scripts with a hat, in order: the ones the translator keeps. */
  function Hatted(ss: seq<Script>): (r: seq<Script>)
    ensures |r| <= |ss|
    ensures forall j :: 0 <= j < |r| ==> r[j].hat.Some?
  {
    if |ss| == 0 then []
    else if ss[0].hat.Some? then [ss[0]] + Hatted(ss[1..])
    else Hatted(ss[1..])
  }

  /** A kept script: its handler header with the lowered body indented
      under it. */
  function ScriptText(s: Script, n: nat, stage: string): (r: Res<string>)
    requires s.hat.Some? && SupportedHat(s.hat.value)
    requires HatTranslatable(s.hat.value) ==> SupportedStmts(s.stmts)
    ensures r.Ok? <==> ScriptTranslatable(s)
    ensures r.Err? ==> ScriptErrorKind(r.error)
  {
    var head :- TranslateHat(s.hat.value, n, stage);
    var body :- TranslateStmts(s.stmts, stage);
    Ok(head + Indent(body))
  }

  ghost predicate ScriptsTranslatable(ss: seq<Script>)
    decreases |ss|
  {
    |ss| == 0 || (ScriptTranslatable(ss[0]) && ScriptsTranslatable(ss[1..]))
  }

  /** Appends the kept scripts of `ss` to `acc`, numbering each by the
      number of scripts kept before it. */
  function CollectScripts(ss: seq<Script>, acc: seq<string>, stage: string): (r: Res<seq<string>>)
    requires SupportedScripts(ss)
    ensures r.Ok? <==> ScriptsTranslatable(ss)
    ensures r.Err? ==> ScriptErrorKind(r.error)
    ensures r.Ok? ==> |r.value| == |acc| + |Hatted(ss)|
    decreases |ss|
  {
    if |ss| == 0 then Ok(acc)
    else
      if ss[0].hat.None? then
        CollectScripts(ss[1..], acc, stage)
      else
        var text :- ScriptText(ss[0], |acc|, stage);
        CollectScripts(ss[1..], acc + [text], stage)
  }

  lemma {:induction false} HattedSupported(ss: seq<Script>)
    requires SupportedScripts(ss)
    ensures SupportedScripts(Hatted(ss))
  {
    if |ss| > 0 {
      HattedSupported(ss[1..]);
      if ss[0].hat.Some? {
        var h := Hatted(ss);
        assert h[0] == ss[0] && h[1..] == Hatted(ss[1..]);
      }
    }
  }

  lemma {:induction false} SupportedScriptAt(ss: seq<Script>, j: nat)
    requires SupportedScripts(ss) && j < |ss|
    ensures SupportedScript(ss[j])
    decreases |ss|
  {
    if j > 0 {
      SupportedScriptAt(ss[1..], j - 1);
    }
  }

  /** Collecting keeps what was collected before. */
  lemma {:induction false} CollectScriptsPrefix(ss: seq<Script>, acc: seq<string>, stage: string)
    requires SupportedScripts(ss)
    requires CollectScripts(ss, acc, stage).Ok?
    ensures CollectScripts(ss, acc, stage).value[..|acc|] == acc
    decreases |ss|
  {
    if |ss| > 0 {
      if ss[0].hat.None? {
        CollectScriptsPrefix(ss[1..], acc, stage);
      } else {
        var text := ScriptText(ss[0], |acc|, stage).value;
        CollectScriptsPrefix(ss[1..], acc + [text], stage);
        var r := CollectScripts(ss, acc, stage).value;
        assert r[..|acc|] == r[..|acc| + 1][..|acc|];
      }
    }
  }

  /** The `j`-th kept script of `ss` is supported and is collected after
      `acc` at position `|acc| + j`, numbered by that position. */
  ghost predicate NumberedAt(ss: seq<Script>, acc: seq<string>, stage: string, j: nat)
  {
    && SupportedScripts(ss) && CollectScripts(ss, acc, stage).Ok? && j < |Hatted(ss)|
    && SupportedScript(Hatted(ss)[j])
    && ScriptText(Hatted(ss)[j], |acc| + j, stage) == Ok(CollectScripts(ss, acc, stage).value[|acc| + j])
  }

  /** A script without a hat adds nothing: the kept scripts and the
      collection are those of the remaining scripts. */
  lemma NumberingSkip(ss: seq<Script>, acc: seq<string>, stage: string, j: nat)
    requires SupportedScripts(ss) && |ss| > 0 && ss[0].hat.None?
    requires CollectScripts(ss, acc, stage).Ok?
    requires NumberedAt(ss[1..], acc, stage, j)
    ensures NumberedAt(ss, acc, stage, j)
  {
    assert Hatted(ss) == Hatted(ss[1..]);
  }

  /** A kept script is collected right after what was collected before it. */
  lemma NumberingFirst(ss: seq<Script>, acc: seq<string>, stage: string)
    requires SupportedScripts(ss) && |ss| > 0 && ss[0].hat.Some?
    requires CollectScripts(ss, acc, stage).Ok?
    requires ScriptText(ss[0], |acc|, stage).Ok?
    requires var acc' := acc + [ScriptText(ss[0], |acc|, stage).value];
      CollectScripts(ss[1..], acc', stage).Ok? && CollectScripts(ss[1..], acc', stage).value[..|acc'|] == acc'
    ensures NumberedAt(ss, acc, stage, 0)
  {
    var acc' := acc + [ScriptText(ss[0], |acc|, stage).value];
    var r := CollectScripts(ss, acc, stage).value;
    assert r[|acc|] == r[..|acc'|][|acc|];
    assert Hatted(ss)[0] == ss[0];
  }

  /** A kept script is collected before the remaining ones. */
  lemma CollectStep(ss: seq<Script>, acc: seq<string>, stage: string)
    requires SupportedScripts(ss) && |ss| > 0 && ss[0].hat.Some?
    requires CollectScripts(ss, acc, stage).Ok?
    ensures SupportedScripts(ss[1..]) && ScriptText(ss[0], |acc|, stage).Ok?
    ensures CollectScripts(ss, acc, stage) == CollectScripts(ss[1..], acc + [ScriptText(ss[0], |acc|, stage).value], stage)
  {
  }

  lemma HattedShift(ss: seq<Script>, j: nat)
    requires |ss| > 0 && ss[0].hat.Some? && 0 < j < |Hatted(ss)|
    ensures j - 1 < |Hatted(ss[1..])| && Hatted(ss)[j] == Hatted(ss[1..])[j - 1]
  {
    assert Hatted(ss) == [ss[0]] + Hatted(ss[1..]);
  }

  /** A kept script shifts the later ones by one position and one number. */
  lemma NumberingNext(ss: seq<Script>, acc: seq<string>, acc': seq<string>, stage: string, j: nat)
    requires SupportedScripts(ss) && |ss| > 0 && ss[0].hat.Some? && 0 < j < |Hatted(ss)|
    requires CollectScripts(ss, acc, stage).Ok?
    requires ScriptText(ss[0], |acc|, stage).Ok? && acc' == acc + [ScriptText(ss[0], |acc|, stage).value]
    requires CollectScripts(ss, acc, stage) == CollectScripts(ss[1..], acc', stage)
    requires NumberedAt(ss[1..], acc', stage, j - 1)
    ensures NumberedAt(ss, acc, stage, j)
  {
    HattedShift(ss, j);
  }

  lemma {:induction false} CollectNumbered(ss: seq<Script>, acc: seq<string>, stage: string, j: nat)
    requires SupportedScripts(ss) && CollectScripts(ss, acc, stage).Ok? && j < |Hatted(ss)|
    ensures NumberedAt(ss, acc, stage, j)
    decreases |ss|, 2
  {
    if ss[0].hat.None? {
      NumberedAfterSkip(ss, acc, stage, j);
    } else {
      NumberedAfterKept(ss, acc, stage, j);
    }
  }

  lemma {:induction false} NumberedAfterSkip(ss: seq<Script>, acc: seq<string>, stage: string, j: nat)
    requires SupportedScripts(ss) && CollectScripts(ss, acc, stage).Ok? && j < |Hatted(ss)|
    requires |ss| > 0 && ss[0].hat.None?
    ensures NumberedAt(ss, acc, stage, j)
    decreases |ss|, 1
  {
    CollectNumbered(ss[1..], acc, stage, j);
    NumberingSkip(ss, acc, stage, j);
  }

  lemma {:induction false} NumberedAfterKept(ss: seq<Script>, acc: seq<string>, stage: string, j: nat)
    requires SupportedScripts(ss) && CollectScripts(ss, acc, stage).Ok? && j < |Hatted(ss)|
    requires |ss| > 0 && ss[0].hat.Some?
    ensures NumberedAt(ss, acc, stage, j)
    decreases |ss|, 1
  {
    CollectStep(ss, acc, stage);
    var acc' := acc + [ScriptText(ss[0], |acc|, stage).value];
    if j == 0 {
      CollectScriptsPrefix(ss[1..], acc', stage);
      NumberingFirst(ss, acc, stage);
    } else {
      HattedShift(ss, j);
      NumberedBehindKept(ss, acc, acc', stage, j);
      NumberingNext(ss, acc, acc', stage, j);
    }
  }

  lemma {:induction false} NumberedBehindKept(ss: seq<Script>, acc: seq<string>, acc': seq<string>, stage: string, j: nat)
    requires SupportedScripts(ss) && |ss| > 0 && 0 < j
    requires SupportedScripts(ss[1..]) && CollectScripts(ss[1..], acc', stage).Ok? && j - 1 < |Hatted(ss[1..])|
    ensures NumberedAt(ss[1..], acc', stage, j - 1)
    decreases |ss|, 0
  {
    CollectNumbered(ss[1..], acc', stage, j - 1);
  }

  /** The `j`-th kept script is collected at position `|acc| + j` and is
      numbered by that position, so its handler gets index `|acc| + j + 1`. */
  lemma CollectScriptsNumbering(ss: seq<Script>, acc: seq<string>, stage: string, j: nat)
    requires SupportedScripts(ss)
    requires CollectScripts(ss, acc, stage).Ok?
    requires j < |Hatted(ss)|
    ensures SupportedScript(Hatted(ss)[j])
    ensures ScriptText(Hatted(ss)[j], |acc| + j, stage) == Ok(CollectScripts(ss, acc, stage).value[|acc| + j])
  {
    CollectNumbered(ss, acc, stage, j);
  }

  function TranslateSprite(e: Entity, stage: string): (r: Res<SpriteInfo>)
    requires SupportedEntity(e)
    ensures r.Ok? <==> ScriptsTranslatable(e.scripts)
    ensures r.Err? ==> ScriptErrorKind(r.error)
    ensures r.Ok? ==> r.value.name == e.transName && r.value.funcs == e.funcs
    ensures r.Ok? ==> r.value.costumes == Costumes(e) && r.value.activeCostume == e.activeCostume
    ensures r.Ok? ==> |r.value.scripts| == |Hatted(e.scripts)|
    ensures r.Ok? ==> r.value.fields == Initialisers(e.fields)
    ensures r.Ok? ==> WritableSprite(r.value)
  {
    var scripts :- CollectScripts(e.scripts, [], stage);
    Ok(SpriteInfo(e.transName, scripts, Initialisers(e.fields), e.funcs, Costumes(e),
                  e.activeCostume, e.visible, e.color, e.pos, e.heading, e.scale))
  }

  /** Every entity's kept scripts lower. */
  ghost predicate EntitiesTranslatable(es: seq<Entity>)
    decreases |es|
  {
    |es| == 0 || (ScriptsTranslatable(es[0].scripts) && EntitiesTranslatable(es[1..]))
  }

  function EntityNames(es: seq<Entity>): (r: seq<string>)
    decreases |es|
  {
    if |es| == 0 then [] else [es[0].transName] + EntityNames(es[1..])
  }

  function EntityFuncs(es: seq<Entity>): (r: seq<seq<Function>>)
    decreases |es|
  {
    if |es| == 0 then [] else [es[0].funcs] + EntityFuncs(es[1..])
  }

  function SpriteNames(ss: seq<SpriteInfo>): (r: seq<string>)
    decreases |ss|
  {
    if |ss| == 0 then [] else [ss[0].name] + SpriteNames(ss[1..])
  }

  function SpriteFuncs(ss: seq<SpriteInfo>): (r: seq<seq<Function>>)
    decreases |ss|
  {
    if |ss| == 0 then [] else [ss[0].funcs] + SpriteFuncs(ss[1..])
  }

  predicate AllWritable(ss: seq<SpriteInfo>)
    decreases |ss|
  {
    |ss| == 0 || (WritableSprite(ss[0]) && AllWritable(ss[1..]))
  }

  /** Collects the entities in order, stopping at the first error. */
  function CollectSprites(es: seq<Entity>, stage: string): (r: Res<seq<SpriteInfo>>)
    requires SupportedEntities(es)
    ensures r.Ok? <==> EntitiesTranslatable(es)
    ensures r.Err? ==> ScriptErrorKind(r.error)
    ensures r.Ok? ==> |r.value| == |es|
    ensures r.Ok? ==> SpriteNames(r.value) == EntityNames(es) && SpriteFuncs(r.value) == EntityFuncs(es)
    ensures r.Ok? ==> AllWritable(r.value)
  {
    if |es| == 0 then Ok([])
    else
      var first :- TranslateSprite(es[0], stage);
      var rest :- CollectSprites(es[1..], stage);
      assert ([first] + rest)[0] == first && ([first] + rest)[1..] == rest;
      Ok([first] + rest)
  }

  /** The parameter list of a function: a method takes `self` first. */
  function Params(f: Function, isMethod: bool): seq<string>
  {
    (if isMethod then ["self"] else []) + seq(|f.params|, i requires 0 <= i < |f.params| => f.params[i].transName)
  }

  ghost predicate FunctionsTranslatable(fs: seq<Function>)
  {
    forall i :: 0 <= i < |fs| ==> AllTranslatable(fs[i].stmts)
  }

  /** The definitions of `fs`, each followed by a blank line. */
  function FuncDefs(fs: seq<Function>, isMethod: bool, stage: string): (r: Res<string>)
    requires SupportedFunctions(fs)
    ensures r.Ok? <==> FunctionsTranslatable(fs)
    ensures r.Err? ==> ExprErrorKind(r.error)
  {
    if |fs| == 0 then Ok("")
    else
      assert forall i :: 1 <= i < |fs| ==> fs[i] == fs[1..][i - 1];
      var code :- TranslateStmts(fs[0].stmts, stage);
      var rest :- FuncDefs(fs[1..], isMethod, stage);
      Ok("def " + fs[0].transName + "(" + Join(Params(fs[0], isMethod), ", ") + "):\n" + Indent(code) + "\n\n" + rest)
  }

  /** The global editor: the runtime import, the globals and the role's
      functions. */
  function GlobalText(r: Role, stage: string): (res: Res<string>)
    requires forall i :: 0 <= i < |r.globals| ==> PlainValue(r.globals[i].init)
    requires SupportedFunctions(r.funcs)
    ensures res.Ok? <==> FunctionsTranslatable(r.funcs)
    ensures res.Err? ==> ExprErrorKind(res.error)
    ensures res.Ok? ==> "from netsblox import snap\n\n" <= res.value
    ensures res.Ok? ==> "from netsblox import snap\n\n" + Assignments(Initialisers(r.globals)) <= res.value
  {
    var defs :- FuncDefs(r.funcs, false, stage);
    Ok("from netsblox import snap\n\n" + Assignments(Initialisers(r.globals))
       + (if |r.globals| > 0 then "\n" else "") + defs)
  }

  /** The costume table of a sprite, naming each costume's image. */
  function CostumeEntries(sprite: string, cs: seq<(string, string)>): string
  {
    if |cs| == 0 then ""
    else "    '" + cs[0].0 + "': images." + ImageKey(sprite, cs[0].0) + ",\n" + CostumeEntries(sprite, cs[1..])
  }

  function ImageKey(sprite: string, costume: string): string
  {
    sprite + "_cst_" + costume
  }

  /** The attributes only a turtle's constructor sets. */
  function PoseLines(s: SpriteInfo): string
  {
    "    self.pos = (" + NumText(s.pos.0) + ", " + NumText(s.pos.1) + ")\n"
    + "    self.heading = " + NumText(s.heading) + "\n"
    + "    self.pen_color = (" + Decimal(s.color.r as nat) + ", " + Decimal(s.color.g as nat) + ", " + Decimal(s.color.b as nat) + ")\n"
    + "    self.scale = " + NumText(s.scale) + "\n"
    + "    self.visible = " + BoolText(s.visible) + "\n"
  }

  predicate ValidCostume(s: SpriteInfo)
  {
    s.activeCostume.Some? ==> s.activeCostume.value < |s.costumes|
  }

  function CostumeLine(s: SpriteInfo): string
    requires ValidCostume(s)
  {
    match s.activeCostume
    case Some(idx) => "    self.costume = self.costumes['" + s.costumes[idx].0 + "']\n"
    case None => "    self.costume = None\n"
  }

  /** The body of the constructor of the `i`-th sprite. */
  function InitLines(i: nat, s: SpriteInfo): string
    requires ValidCostume(s)
  {
    (if i != 0 then PoseLines(s) else "") + CostumeLine(s)
  }

  function ScriptBlock(scripts: seq<string>): string
  {
    if |scripts| == 0 then "" else scripts[0] + "\n\n" + ScriptBlock(scripts[1..])
  }

  /** The costume table and the fields a sprite's editor opens with. */
  function SpriteHeader(s: SpriteInfo): string
  {
    (if |s.costumes| > 0 then "costumes = {\n" + CostumeEntries(s.name, s.costumes) + "}\n\n" else "")
    + Assignments(s.fields) + (if |s.fields| > 0 then "\n" else "")
  }

  /** The constructor of the `i`-th sprite. */
  function Constructor(i: nat, s: SpriteInfo): string
    requires ValidCostume(s)
  {
    "def __init__(self):\n" + InitLines(i, s) + "\n"
  }

  /** The editor text of the `i`-th sprite. */
  function SpriteText(i: nat, s: SpriteInfo, stage: string): (r: Res<string>)
    requires WritableSprite(s)
    ensures r.Ok? <==> FunctionsTranslatable(s.funcs)
    ensures r.Err? ==> ExprErrorKind(r.error)
  {
    var defs :- FuncDefs(s.funcs, true, stage);
    Ok(SpriteHeader(s) + Constructor(i, s) + defs + ScriptBlock(s.scripts))
  }

  predicate WritableSprite(s: SpriteInfo)
  {
    ValidCostume(s) && SupportedFunctions(s.funcs)
  }

  /** The editor texts of `sprites`, the first of which is number `start`. */
  function SpriteTexts(sprites: seq<SpriteInfo>, start: nat, stage: string): (r: Res<seq<string>>)
    requires AllWritable(sprites)
    ensures r.Ok? <==> AllFunctionsTranslatable(SpriteFuncs(sprites))
    ensures r.Err? ==> ExprErrorKind(r.error)
    ensures r.Ok? ==> |r.value| == |sprites|
  {
    if |sprites| == 0 then Ok([])
    else
      var text :- SpriteText(start, sprites[0], stage);
      var rest :- SpriteTexts(sprites[1..], start + 1, stage);
      Ok([text] + rest)
  }

  /** The first sprite's editor is the stage's; the others are turtles. */
  function SpriteEditors(sprites: seq<SpriteInfo>, texts: seq<string>): (r: seq<Editor>)
    requires |texts| == |sprites|
    ensures |r| == |sprites|
    ensures forall i :: 0 <= i < |r| ==>
      r[i] == Editor(if i == 0 then StageEditor else TurtleEditor, sprites[i].name, texts[i])
  {
    seq(|sprites|, i requires 0 <= i < |sprites| => Editor(if i == 0 then StageEditor else TurtleEditor, sprites[i].name, texts[i]))
  }

  /** Adds the images of one sprite's costumes; a later costume with the
      same key replaces an earlier one. */
  function AddImages(m: map<string, string>, sprite: string, cs: seq<(string, string)>): map<string, string>
    decreases |cs|
  {
    if |cs| == 0 then m else AddImages(m[ImageKey(sprite, cs[0].0) := cs[0].1], sprite, cs[1..])
  }

  function ImagesFrom(m: map<string, string>, sprites: seq<SpriteInfo>): map<string, string>
    decreases |sprites|
  {
    if |sprites| == 0 then m else ImagesFrom(AddImages(m, sprites[0].name, sprites[0].costumes), sprites[1..])
  }

  ghost function CostumeKeys(sprite: string, cs: seq<(string, string)>): set<string>
  {
    set j | 0 <= j < |cs| :: ImageKey(sprite, cs[j].0)
  }

  ghost function AllImageKeys(sprites: seq<SpriteInfo>): set<string>
  {
    if |sprites| == 0 then {} else CostumeKeys(sprites[0].name, sprites[0].costumes) + AllImageKeys(sprites[1..])
  }

  /** Every function definition in each group lowers. */
  ghost predicate AllFunctionsTranslatable(fss: seq<seq<Function>>)
    decreases |fss|
  {
    |fss| == 0 || (FunctionsTranslatable(fss[0]) && AllFunctionsTranslatable(fss[1..]))
  }

  /** The roles the translator can lower: every kept script of every
      entity, every sprite method and every global function lowers. */
  ghost predicate RoleTranslatable(r: Role)
  {
    && EntitiesTranslatable(r.entities)
    && AllFunctionsTranslatable(EntityFuncs(r.entities))
    && FunctionsTranslatable(r.funcs)
  }

  function TranslateRole(r: Role): (res: Res<RoleOut>)
    requires SupportedRole(r)
    ensures res.Ok? <==> RoleTranslatable(r)
    ensures res.Err? ==> ScriptErrorKind(res.error)
    ensures res.Ok? ==> res.value.name == r.name && res.value.stageSize == r.stageSize
    ensures res.Ok? ==> |res.value.editors| == |r.entities| + 1
    ensures res.Ok? ==> res.value.editors[0].kind == GlobalEditor && res.value.editors[0].name == "global"
  {
    var stage := StageName(r);
    var sprites :- CollectSprites(r.entities, stage);
    var global :- GlobalText(r, stage);
    var texts :- SpriteTexts(sprites, 0, stage);
    Ok(RoleOut(r.name, r.stageSize, [DefaultBlocks], Blocks([], [], []), ["time", "math"],
               [Editor(GlobalEditor, "global", global)] + SpriteEditors(sprites, texts), ImagesFrom(map[], sprites)))
  }

  ghost predicate RolesTranslatable(rs: seq<Role>)
    decreases |rs|
  {
    |rs| == 0 || (RoleTranslatable(rs[0]) && RolesTranslatable(rs[1..]))
  }

  /** The roles in order, stopping at the first error. */
  function TranslateRoles(rs: seq<Role>): (res: Res<seq<RoleOut>>)
    requires SupportedRoles(rs)
    ensures res.Ok? <==> RolesTranslatable(rs)
    ensures res.Err? ==> ScriptErrorKind(res.error)
    ensures res.Ok? ==> |res.value| == |rs|
  {
    if |rs| == 0 then Ok([])
    else
      var first :- TranslateRole(rs[0]);
      var rest :- TranslateRoles(rs[1..]);
      Ok([first] + rest)
  }

  function Translate(p: Project): (res: Res<ProjectOut>)
    requires SupportedProject(p)
    ensures res == Err(NoRoles) <==> |p.roles| == 0
    ensures res.Ok? <==> |p.roles| > 0 && RolesTranslatable(p.roles)
    ensures res.Ok? ==> res.value.name == p.name && |res.value.roles| == |p.roles|
  {
    if |p.roles| == 0 then Err(NoRoles)
    else
      var roles :- TranslateRoles(p.roles);
      Ok(ProjectOut(p.name, true, roles))
  }
}

=== FILE: assembly_facts.dfy ===
/** Properties of role assembly: which scripts are kept and how their
    handlers are numbered, the order and kinds of the editors, what only a
    turtle's constructor sets, the image table, and the roles of a
    project. */
module AssemblyFacts {
  import opened Wrappers
  import opened Text
  import opened Ast
  import opened Exprs
  import opened Stmts
  import opened Hats
  import opened Assembly
  import ExprFacts

  // ---- kept scripts ----

  /** Scripts without a hat are skipped: collecting all the scripts gives
      what collecting only the hatted ones gives, error or not. */
  lemma {:induction false} HatlessSkipped(ss: seq<Script>, acc: seq<string>, stage: string)
    requires SupportedScripts(ss)
    ensures SupportedScripts(Hatted(ss))
    ensures CollectScripts(ss, acc, stage) == CollectScripts(Hatted(ss), acc, stage)
    decreases |ss|
  {
    HattedSupported(ss);
    if |ss| > 0 {
      HatlessSkipped(ss[1..], acc, stage);
      if ss[0].hat.Some? {
        var h := Hatted(ss);
        assert h[0] == ss[0] && h[1..] == Hatted(ss[1..]);
        var text := ScriptText(ss[0], |acc|, stage);
        if text.Ok? {
          HatlessSkipped(ss[1..], acc + [text.value], stage);
        }
      }
    }
  }

  /** Every script is kept exactly when every script has a hat, and none
      is kept exactly when none has. */
  lemma {:induction false} HattedExtremes(ss: seq<Script>)
    ensures |Hatted(ss)| == |ss| <==> forall i :: 0 <= i < |ss| ==> ss[i].hat.Some?
    ensures |Hatted(ss)| == 0 <==> forall i :: 0 <= i < |ss| ==> ss[i].hat.None?
    decreases |ss|
  {
    if |ss| > 0 {
      HattedExtremes(ss[1..]);
      assert forall i :: 1 <= i < |ss| ==> ss[1..][i - 1] == ss[i];
    }
  }

  /** The kept scripts are exactly the scripts with a hat. */
  lemma {:induction false} HattedMembers(ss: seq<Script>)
    ensures forall s :: s in Hatted(ss) <==> s in ss && s.hat.Some?
    decreases |ss|
  {
    if |ss| > 0 {
      HattedMembers(ss[1..]);
      assert ss == [ss[0]] + ss[1..];
    }
  }

  /** The number of scripts with a hat, counted from the back. */
  function HatCount(ss: seq<Script>): nat
    decreases |ss|
  {
    if |ss| == 0 then 0
    else HatCount(ss[..|ss| - 1]) + (if ss[|ss| - 1].hat.Some? then 1 else 0)
  }

  /** Keeping the hatted scripts of a longer sequence keeps those of the
      shorter one first. */
  lemma {:induction false} HattedSnoc(ss: seq<Script>, s: Script)
    ensures Hatted(ss + [s]) == Hatted(ss) + (if s.hat.Some? then [s] else [])
    decreases |ss|
  {
    if |ss| > 0 {
      assert (ss + [s])[1..] == ss[1..] + [s];
      HattedSnoc(ss[1..], s);
    } else {
      assert Hatted([s][1..]) == [];
    }
  }

  /** The kept scripts are the hatted ones in their original order: there
      are as many as there are hats, and the script at position `i` is kept
      at the position given by the number of hatted scripts before it,
      which is the number of handlers defined before it. */
  lemma {:induction false} HattedPlaces(ss: seq<Script>)
    ensures |Hatted(ss)| == HatCount(ss)
    ensures forall i :: 0 <= i < |ss| && ss[i].hat.Some? ==>
      HatCount(ss[..i]) < |Hatted(ss)| && Hatted(ss)[HatCount(ss[..i])] == ss[i]
    decreases |ss|
  {
    if |ss| > 0 {
      var n := |ss| - 1;
      var p := ss[..n];
      HattedPlaces(p);
      assert ss == p + [ss[n]];
      HattedSnoc(p, ss[n]);
      forall i | 0 <= i < |ss| && ss[i].hat.Some?
        ensures HatCount(ss[..i]) < |Hatted(ss)| && Hatted(ss)[HatCount(ss[..i])] == ss[i]
      {
        if i < n {
          assert ss[..i] == p[..i] && p[i] == ss[i];
        } else {
          assert ss[..i] == p;
        }
      }
    }
  }

  /** The recursive support predicates hold exactly when every element is
      supported. */
  lemma {:induction false} SupportedScriptsAll(ss: seq<Script>)
    ensures SupportedScripts(ss) <==> forall i :: 0 <= i < |ss| ==> SupportedScript(ss[i])
    decreases |ss|
  {
    if |ss| > 0 {
      SupportedScriptsAll(ss[1..]);
      assert forall i :: 1 <= i < |ss| ==> ss[1..][i - 1] == ss[i];
    }
  }

  lemma {:induction false} SupportedEntitiesAll(es: seq<Entity>)
    ensures SupportedEntities(es) <==> forall i :: 0 <= i < |es| ==> SupportedEntity(es[i])
    decreases |es|
  {
    if |es| > 0 {
      SupportedEntitiesAll(es[1..]);
      assert forall i :: 1 <= i < |es| ==> es[1..][i - 1] == es[i];
    }
  }

  lemma {:induction false} SupportedRolesAll(rs: seq<Role>)
    ensures SupportedRoles(rs) <==> forall i :: 0 <= i < |rs| ==> SupportedRole(rs[i])
    decreases |rs|
  {
    if |rs| > 0 {
      SupportedRolesAll(rs[1..]);
      assert forall i :: 1 <= i < |rs| ==> rs[1..][i - 1] == rs[i];
    }
  }

  /** A kept script is its hat's handler header, numbered by the script's
      position among the kept ones, with the lowered body indented below. */
  lemma ScriptLayout(s: Script, n: nat, stage: string)
    requires SupportedScript(s) && s.hat.Some? && ScriptTranslatable(s)
    ensures TranslateHat(s.hat.value, n, stage).Ok? && TranslateStmts(s.stmts, stage).Ok?
    ensures !s.hat.value.kind.OtherHat?
    ensures ScriptText(s, n, stage) == Ok(TranslateHat(s.hat.value, n, stage).value + Indent(TranslateStmts(s.stmts, stage).value))
    ensures EndsWith(TranslateHat(s.hat.value, n, stage).value, HandlerDef(s.hat.value.kind, n))
  {
  }

  /** The `j`-th kept script of a sprite defines the handler numbered
      `j + 1`. */
  lemma KeptScriptHandler(e: Entity, stage: string, j: nat)
    requires SupportedEntity(e) && TranslateSprite(e, stage).Ok?
    requires j < |Hatted(e.scripts)|
    ensures SupportedScript(Hatted(e.scripts)[j]) && ScriptTranslatable(Hatted(e.scripts)[j])
    ensures ScriptText(Hatted(e.scripts)[j], j, stage) == Ok(TranslateSprite(e, stage).value.scripts[j])
  {
    CollectScriptsNumbering(e.scripts, [], stage, j);
  }

  /** Two kept scripts of one sprite never define handlers of the same
      name. */
  lemma KeptHandlersDistinct(e: Entity, stage: string, j1: nat, j2: nat)
    requires SupportedEntity(e) && TranslateSprite(e, stage).Ok?
    requires j1 < |Hatted(e.scripts)| && j2 < |Hatted(e.scripts)| && j1 != j2
    ensures var h1, h2 := Hatted(e.scripts)[j1].hat.value, Hatted(e.scripts)[j2].hat.value;
      !h1.kind.OtherHat? && !h2.kind.OtherHat? && HandlerName(h1.kind, j1) != HandlerName(h2.kind, j2)
  {
    KeptScriptHandler(e, stage, j1);
    KeptScriptHandler(e, stage, j2);
    var h1, h2 := Hatted(e.scripts)[j1].hat.value, Hatted(e.scripts)[j2].hat.value;
    if HandlerName(h1.kind, j1) == HandlerName(h2.kind, j2) {
      HandlerNamesDistinct(h1.kind, j1, h2.kind, j2);
    }
  }

  // ---- sequences of sprites and roles, position by position ----

  lemma {:induction false} EntityNamesAt(es: seq<Entity>, i: nat)
    requires i < |es|
    ensures i < |EntityNames(es)| && EntityNames(es)[i] == es[i].transName
    decreases |es|
  {
    if i > 0 {
      EntityNamesAt(es[1..], i - 1);
    }
  }

  lemma {:induction false} SpriteNamesAt(ss: seq<SpriteInfo>, i: nat)
    requires i < |ss|
    ensures i < |SpriteNames(ss)| && SpriteNames(ss)[i] == ss[i].name
    decreases |ss|
  {
    if i > 0 {
      SpriteNamesAt(ss[1..], i - 1);
    }
  }

  lemma CollectSpritesCons(es: seq<Entity>, stage: string)
    requires SupportedEntities(es) && |es| > 0 && CollectSprites(es, stage).Ok?
    ensures SupportedEntity(es[0]) && SupportedEntities(es[1..])
    ensures TranslateSprite(es[0], stage).Ok? && CollectSprites(es[1..], stage).Ok?
    ensures CollectSprites(es, stage).value == [TranslateSprite(es[0], stage).value] + CollectSprites(es[1..], stage).value
  {
  }

  /** The `i`-th collected sprite is the `i`-th entity's. */
  lemma {:induction false} CollectSpritesAt(es: seq<Entity>, stage: string, i: nat)
    requires SupportedEntities(es) && CollectSprites(es, stage).Ok? && i < |es|
    ensures SupportedEntity(es[i])
    ensures TranslateSprite(es[i], stage) == Ok(CollectSprites(es, stage).value[i])
    decreases |es|
  {
    CollectSpritesCons(es, stage);
    if i > 0 {
      CollectSpritesAt(es[1..], stage, i - 1);
    }
  }

  lemma SpriteTextsCons(sprites: seq<SpriteInfo>, start: nat, stage: string)
    requires AllWritable(sprites) && |sprites| > 0 && SpriteTexts(sprites, start, stage).Ok?
    ensures WritableSprite(sprites[0]) && AllWritable(sprites[1..])
    ensures SpriteText(start, sprites[0], stage).Ok? && SpriteTexts(sprites[1..], start + 1, stage).Ok?
    ensures SpriteTexts(sprites, start, stage).value
      == [SpriteText(start, sprites[0], stage).value] + SpriteTexts(sprites[1..], start + 1, stage).value
  {
  }

  /** The `i`-th editor text is the text of sprite number `start + i`. */
  lemma {:induction false} SpriteTextsAt(sprites: seq<SpriteInfo>, start: nat, stage: string, i: nat)
    requires AllWritable(sprites) && SpriteTexts(sprites, start, stage).Ok? && i < |sprites|
    ensures WritableSprite(sprites[i])
    ensures SpriteText(start + i, sprites[i], stage) == Ok(SpriteTexts(sprites, start, stage).value[i])
    decreases |sprites|
  {
    SpriteTextsCons(sprites, start, stage);
    if i > 0 {
      SpriteTextsAt(sprites[1..], start + 1, stage, i - 1);
    }
  }

  lemma TranslateRolesCons(rs: seq<Role>)
    requires SupportedRoles(rs) && |rs| > 0 && TranslateRoles(rs).Ok?
    ensures SupportedRole(rs[0]) && SupportedRoles(rs[1..])
    ensures TranslateRole(rs[0]).Ok? && TranslateRoles(rs[1..]).Ok?
    ensures TranslateRoles(rs).value == [TranslateRole(rs[0]).value] + TranslateRoles(rs[1..]).value
  {
    RolesConsOk(rs);
    RolesConsValue(rs);
  }

  lemma RolesConsOk(rs: seq<Role>)
    requires SupportedRoles(rs) && |rs| > 0 && TranslateRoles(rs).Ok?
    ensures SupportedRole(rs[0]) && SupportedRoles(rs[1..])
    ensures TranslateRole(rs[0]).Ok? && TranslateRoles(rs[1..]).Ok?
  {
  }

  lemma RolesConsValue(rs: seq<Role>)
    requires SupportedRoles(rs) && |rs| > 0 && TranslateRoles(rs).Ok?
    requires SupportedRole(rs[0]) && SupportedRoles(rs[1..])
    requires TranslateRole(rs[0]).Ok? && TranslateRoles(rs[1..]).Ok?
    ensures TranslateRoles(rs).value == [TranslateRole(rs[0]).value] + TranslateRoles(rs[1..]).value
  {
    var first, rest := TranslateRole(rs[0]), TranslateRoles(rs[1..]);
    assert !first.IsFailure() && !rest.IsFailure();
    assert TranslateRoles(rs) == Ok([first.Extract()] + rest.Extract());
  }

  /** Role `i` is supported and its output is output `i` of the roles. */
  ghost predicate RoleAt(rs: seq<Role>, i: nat)
  {
    && SupportedRoles(rs) && TranslateRoles(rs).Ok? && i < |rs|
    && SupportedRole(rs[i]) && TranslateRole(rs[i]) == Ok(TranslateRoles(rs).value[i])
  }

  /** A later role sits one place further on than in the remaining roles. */
  lemma RolesAtNext(rs: seq<Role>, i: nat)
    requires SupportedRoles(rs) && 0 < i < |rs| && TranslateRoles(rs).Ok?
    requires RoleAt(rs[1..], i - 1)
    ensures RoleAt(rs, i)
  {
    TranslateRolesCons(rs);
    assert rs[1..][i - 1] == rs[i];
  }

  /** The `i`-th role of a project is the translation of its `i`-th role. */
  lemma TranslateRolesAt(rs: seq<Role>, i: nat)
    requires SupportedRoles(rs) && TranslateRoles(rs).Ok? && i < |rs|
    ensures SupportedRole(rs[i])
    ensures TranslateRole(rs[i]) == Ok(TranslateRoles(rs).value[i])
  {
    RolesAtAny(rs, i);
  }

  lemma {:induction false} RolesAtAny(rs: seq<Role>, i: nat)
    requires SupportedRoles(rs) && TranslateRoles(rs).Ok? && i < |rs|
    ensures RoleAt(rs, i)
    decreases |rs|, 1
  {
    if i == 0 {
      RolesAtFirst(rs);
    } else {
      RolesConsOk(rs);
      RolesAtLater(rs, i);
    }
  }

  lemma RolesAtFirst(rs: seq<Role>)
    requires SupportedRoles(rs) && TranslateRoles(rs).Ok? && 0 < |rs|
    ensures RoleAt(rs, 0)
  {
    TranslateRolesCons(rs);
  }

  lemma {:induction false} RolesAtLater(rs: seq<Role>, i: nat)
    requires SupportedRoles(rs) && TranslateRoles(rs).Ok? && 0 < i < |rs|
    requires SupportedRoles(rs[1..]) && TranslateRoles(rs[1..]).Ok?
    ensures RoleAt(rs, i)
    decreases |rs|, 0
  {
    RolesAtAny(rs[1..], i - 1);
    RolesAtNext(rs, i);
  }

  /** Every role of the project is translated on its own, in order. */
  lemma ProjectRoles(p: Project, i: nat)
    requires SupportedProject(p) && Translate(p).Ok? && i < |p.roles|
    ensures SupportedRole(p.roles[i])
    ensures TranslateRole(p.roles[i]) == Ok(Translate(p).value.roles[i])
  {
    TranslateRolesAt(p.roles, i);
  }

  // ---- editors ----

  /** A translated role is assembled from its collected sprites, their
      editor texts and the global editor text. */
  lemma RoleParts(r: Role)
    requires SupportedRole(r) && TranslateRole(r).Ok?
    ensures CollectSprites(r.entities, StageName(r)).Ok?
    ensures SpriteTexts(CollectSprites(r.entities, StageName(r)).value, 0, StageName(r)).Ok?
    ensures GlobalText(r, StageName(r)).Ok?
  {
  }

  /** Every field and global starts out as a boolean or a `snap.wrap` call
      of its literal value, under its translated name. */
  lemma InitialisersWrapped(ds: seq<VarDecl>)
    requires forall i :: 0 <= i < |ds| ==> PlainValue(ds[i].init)
    ensures forall i :: 0 <= i < |ds| ==>
      Initialisers(ds)[i].0 == ds[i].transName && ExprFacts.WrappedText(Initialisers(ds)[i].1)
  {
    forall i | 0 <= i < |ds|
      ensures ExprFacts.WrappedText(Initialisers(ds)[i].1)
    {
      ExprFacts.WrappedValue(ds[i].init);
    }
  }

  /** The parts of a role's output that do not depend on the role: the
      default block source, empty block lists and the `time` and `math`
      imports. */
  lemma RoleFixedFields(r: Role)
    requires SupportedRole(r) && TranslateRole(r).Ok?
    ensures TranslateRole(r).value.blockSources == ["netsblox://assets/default-blocks.json"]
    ensures TranslateRole(r).value.blocks == Blocks([], [], [])
    ensures TranslateRole(r).value.imports == ["time", "math"]
  {
  }

  /** A translated project always shows its blocks. */
  lemma ProjectShowsBlocks(p: Project)
    requires SupportedProject(p) && Translate(p).Ok?
    ensures Translate(p).value.showBlocks
  {
  }

  /** The editors: the global one, then the sprites' in sprite order. */
  lemma RoleEditors(r: Role)
    requires SupportedRole(r) && TranslateRole(r).Ok?
    requires CollectSprites(r.entities, StageName(r)).Ok?
    requires SpriteTexts(CollectSprites(r.entities, StageName(r)).value, 0, StageName(r)).Ok?
    requires GlobalText(r, StageName(r)).Ok?
    ensures var sprites := CollectSprites(r.entities, StageName(r)).value;
      TranslateRole(r).value.editors == [Editor(GlobalEditor, "global", GlobalText(r, StageName(r)).value)]
        + SpriteEditors(sprites, SpriteTexts(sprites, 0, StageName(r)).value)
  {
  }

  /** The image table is built from the collected sprites' costumes. */
  lemma RoleImageTable(r: Role)
    requires SupportedRole(r) && TranslateRole(r).Ok?
    requires CollectSprites(r.entities, StageName(r)).Ok?
    ensures TranslateRole(r).value.images == ImagesFrom(map[], CollectSprites(r.entities, StageName(r)).value)
  {
  }

  /** The editors of a role: the global one first, then one per entity in
      entity order, the first entity's being the stage's and every later
      one a turtle's. */
  lemma EditorOrder(r: Role, i: nat)
    requires SupportedRole(r) && TranslateRole(r).Ok? && i < |r.entities|
    ensures TranslateRole(r).value.editors[i + 1].kind == if i == 0 then StageEditor else TurtleEditor
    ensures TranslateRole(r).value.editors[i + 1].name == r.entities[i].transName
  {
    RoleParts(r);
    RoleEditors(r);
    var sprites := CollectSprites(r.entities, StageName(r)).value;
    EntityNamesAt(r.entities, i);
    SpriteNamesAt(sprites, i);
  }

  /** The global editor starts with the runtime import. */
  lemma GlobalEditorText(r: Role)
    requires SupportedRole(r) && TranslateRole(r).Ok?
    ensures "from netsblox import snap\n\n" <= TranslateRole(r).value.editors[0].value
  {
    RoleParts(r);
    RoleEditors(r);
  }

  /** The `i`-th entity's editor holds the `i`-th sprite text. */
  lemma EditorIsSpriteText(r: Role, i: nat)
    requires SupportedRole(r) && TranslateRole(r).Ok? && i < |r.entities|
    ensures CollectSprites(r.entities, StageName(r)).Ok?
    ensures SpriteTexts(CollectSprites(r.entities, StageName(r)).value, 0, StageName(r)).Ok?
    ensures TranslateRole(r).value.editors[i + 1].value
      == SpriteTexts(CollectSprites(r.entities, StageName(r)).value, 0, StageName(r)).value[i]
  {
    RoleParts(r);
    RoleEditors(r);
  }

  /** The `i`-th entity's editor holds the text of the sprite collected from
      that entity, written as sprite number `i`. */
  lemma EditorText(r: Role, i: nat)
    requires SupportedRole(r) && TranslateRole(r).Ok? && i < |r.entities|
    ensures SupportedEntity(r.entities[i]) && TranslateSprite(r.entities[i], StageName(r)).Ok?
    ensures WritableSprite(TranslateSprite(r.entities[i], StageName(r)).value)
    ensures SpriteText(i, TranslateSprite(r.entities[i], StageName(r)).value, StageName(r))
      == Ok(TranslateRole(r).value.editors[i + 1].value)
  {
    EditorIsSpriteText(r, i);
    var sprites := CollectSprites(r.entities, StageName(r)).value;
    CollectSpritesAt(r.entities, StageName(r), i);
    SpriteTextsAt(sprites, 0, StageName(r), i);
  }

  // ---- constructors ----

  /** Only a turtle's constructor sets position, heading, pen colour, scale
      and visibility: the stage's sets its costume and nothing else. */
  lemma PoseOnlyForTurtles(i: nat, s: SpriteInfo)
    requires ValidCostume(s)
    ensures InitLines(i, s) == CostumeLine(s) <==> i == 0
    ensures i != 0 ==> InitLines(i, s) == PoseLines(s) + CostumeLine(s)
    ensures Constructor(0, s) == "def __init__(self):\n" + CostumeLine(s) + "\n"
  {
    if i != 0 {
      assert |PoseLines(s)| > 0;
    }
  }

  /** A sprite's editor text holds its constructor right after the costume
      table and the fields. */
  lemma SpriteConstructor(i: nat, s: SpriteInfo, stage: string)
    requires WritableSprite(s) && SpriteText(i, s, stage).Ok?
    ensures var n := |SpriteHeader(s)|;
      n + |Constructor(i, s)| <= |SpriteText(i, s, stage).value|
      && SpriteText(i, s, stage).value[n..n + |Constructor(i, s)|] == Constructor(i, s)
  {
    var h, c := SpriteHeader(s), Constructor(i, s);
    var rest := FuncDefs(s.funcs, true, stage).value + ScriptBlock(s.scripts);
    assert SpriteText(i, s, stage).value == h + c + rest;
    assert (h + c + rest)[|h|..|h| + |c|] == c;
  }

  // ---- images ----

  lemma {:induction false} CostumeKeysCons(sprite: string, cs: seq<(string, string)>)
    requires |cs| > 0
    ensures CostumeKeys(sprite, cs) == {ImageKey(sprite, cs[0].0)} + CostumeKeys(sprite, cs[1..])
  {
    forall k | k in CostumeKeys(sprite, cs)
      ensures k in {ImageKey(sprite, cs[0].0)} + CostumeKeys(sprite, cs[1..])
    {
      var j :| 0 <= j < |cs| && k == ImageKey(sprite, cs[j].0);
      if j > 0 {
        assert cs[1..][j - 1] == cs[j];
      }
    }
    forall k | k in CostumeKeys(sprite, cs[1..])
      ensures k in CostumeKeys(sprite, cs)
    {
      var j :| 0 <= j < |cs[1..]| && k == ImageKey(sprite, cs[1..][j].0);
      assert cs[1..][j] == cs[j + 1];
    }
  }

  lemma {:induction false} AddImagesKeys(m: map<string, string>, sprite: string, cs: seq<(string, string)>)
    ensures AddImages(m, sprite, cs).Keys == m.Keys + CostumeKeys(sprite, cs)
    decreases |cs|
  {
    if |cs| > 0 {
      AddImagesKeys(m[ImageKey(sprite, cs[0].0) := cs[0].1], sprite, cs[1..]);
      CostumeKeysCons(sprite, cs);
    }
  }

  lemma {:induction false} ImagesFromKeys(m: map<string, string>, sprites: seq<SpriteInfo>)
    ensures ImagesFrom(m, sprites).Keys == m.Keys + AllImageKeys(sprites)
    decreases |sprites|
  {
    if |sprites| > 0 {
      AddImagesKeys(m, sprites[0].name, sprites[0].costumes);
      ImagesFromKeys(AddImages(m, sprites[0].name, sprites[0].costumes), sprites[1..]);
    }
  }

  /** The image table holds one image per costume key and nothing else. */
  lemma RoleImages(r: Role)
    requires SupportedRole(r) && TranslateRole(r).Ok?
    ensures TranslateRole(r).value.images.Keys == AllImageKeys(CollectSprites(r.entities, StageName(r)).value)
  {
    RoleParts(r);
    RoleImageTable(r);
    ImagesFromKeys(map[], CollectSprites(r.entities, StageName(r)).value);
  }

  /** Every costume an entity's costume table names has its image in the
      role's image table. */
  lemma CostumeImagePresent(r: Role, i: nat, j: nat)
    requires SupportedRole(r) && TranslateRole(r).Ok?
    requires i < |r.entities| && j < |r.entities[i].costumes|
    ensures ImageKey(r.entities[i].transName, r.entities[i].costumes[j].transName) in TranslateRole(r).value.images
  {
    var stage := StageName(r);
    var sprites := CollectSprites(r.entities, stage).value;
    CollectSpritesAt(r.entities, stage, i);
    RoleImages(r);
    KeyInAll(sprites, i, j);
  }

  lemma {:induction false} KeyInAll(sprites: seq<SpriteInfo>, i: nat, j: nat)
    requires i < |sprites| && j < |sprites[i].costumes|
    ensures ImageKey(sprites[i].name, sprites[i].costumes[j].0) in AllImageKeys(sprites)
    decreases |sprites|
  {
    if i > 0 {
      KeyInAll(sprites[1..], i - 1, j);
    }
  }
}

=== FILE: ast.dfy ===
/** The already-parsed NetsBlox project the translator consumes, and the
    errors it reports. Identifiers arrive translated to Python-safe names and
    every variable and function reference arrives with its resolved scope.

    Expression variants of the AST that lower by one fixed template are
    grouped by shape: `Unary`, `Binary` and `Sense` carry an operator tag,
    and `Variadic` the four operators with a shape peephole. Every other
    expression kind the translator does not match is `Unsupported`. */
module Ast {
  import opened Wrappers
  import opened Text

  newtype byte = x: int | 0 <= x < 256

  datatype MathConst = Pi | E

  /** A literal value. `Image` and `Ref` never reach lowering. */
  datatype Value =
    | String(s: string)
    | Number(n: Float)
    | Bool(b: bool)
    | Constant(c: MathConst)
    | List(values: seq<Value>)
    | Image(content: seq<byte>)
    | Ref(id: nat)

  datatype VarLocation = Local | Field | Global

  /** A use of a variable, with the scope the parser resolved. */
  datatype VariableRef = VariableRef(transName: string, location: VarLocation)

  /** A declaration of a variable: its NetsBlox name and its Python name. */
  datatype VariableDef = VariableDef(name: string, transName: string)

  datatype FnLocation = GlobalFn | MethodFn

  datatype FnRef = FnRef(transName: string, location: FnLocation)

  /** One-operand forms: each lowers to a fixed text around its operand. */
  datatype UnaryOp =
    | Neg | Not | Abs | Sign | Sqrt | Round | Floor | Ceil
    | Sin | Cos | Tan | Asin | Acos | Atan
    | Min | Max | UnicodeToChar | CharToUnicode
    | ListLen | StrLen | ListGetRandom | ListGetLast | ListCdr
    | ImageOfEntity | IsTouchingEntity

  /** Two-operand forms, in the operand order of the AST (left is
      evaluated first). */
  datatype BinaryOp =
    | Sub | Div | Mod | Pow | And | Or
    | Less | LessEq | Eq | Neq | Greater | GreaterEq
    | Atan2 | Log | Identical | Random | Range | ListFind | ListGet

  /** Operand-less readings of the current sprite or of the stage. */
  datatype Sensor =
    | XPos | YPos | Heading | MouseX | MouseY | StageWidth | StageHeight
    | Latitude | Longitude | PenDown | Size | IsVisible | RpcError | ImageOfDrawings

  /** The variadic operators whose lowering depends on the shape of their
      operand. */
  datatype VariadicOp = Add | Mul | ListCat | StrCat

  datatype ValueType =
    | BoolTy | TextTy | NumberTy | ListTy | SpriteTy | CostumeTy | SoundTy
    | CommandTy | ReporterTy | PredicateTy

  datatype SplitMode = Custom(sep: Expr) | LF | CR | Tab | Letter | Word | Csv | Json

  /** A keyword argument of an RPC call or a network message. */
  datatype KwArg = KwArg(name: string, value: Expr)

  datatype Expr =
    | Literal(value: Value)
    | Variable(ref: VariableRef)
    | This
    | EntityRef(transName: string)
    | MakeList(values: seq<Expr>)
    | Unary(uop: UnaryOp, arg: Expr)
    | Binary(bop: BinaryOp, left: Expr, right: Expr)
    | Variadic(vop: VariadicOp, operand: Expr)
    | Conditional(condition: Expr, thenExpr: Expr, elseExpr: Expr)
    | TextSplit(text: Expr, mode: SplitMode)
    | TypeQuery(queried: Expr, ty: ValueType)
    | CallRpc(service: string, rpc: string, kwargs: seq<KwArg>)
    | CallFn(callee: FnRef, args: seq<Expr>, upvars: seq<VariableRef>)
    | Sense(sensor: Sensor)
    | Unsupported(kind: string)

  datatype Color = Color(r: byte, g: byte, b: byte, a: byte)

  /** A statement with the comment attached to its block. */
  datatype Stmt = Stmt(kind: StmtKind, comment: Option<string>)

  /** Statement kinds, grouped by block category. */
  datatype StmtKind =
    | DeclareLocals(vars: seq<VariableDef>)
    | Assign(assignee: VariableRef, value: Expr)
    | AddAssign(assignee: VariableRef, value: Expr)
    | Control(control: ControlStmt)
    | Motion(motion: MotionStmt)
    | Looks(looks: LooksStmt)
    | Pen(pen: PenStmt)
    | ListOp(listOp: ListStmt)
    | Message(message: MessageStmt)
    | Wait(wait: WaitStmt)
    | CallFn(callee: FnRef, args: seq<Expr>, upvars: seq<VariableRef>)
    | RunRpc(service: string, rpc: string, kwargs: seq<KwArg>)
    | Return(value: Expr)
    | UnhandledStmt(kind: string)

  /** The statements that hold a body: warp, conditionals and loops. */
  datatype ControlStmt =
    | Warp(body: seq<Stmt>)
    | If(condition: Expr, thenBody: seq<Stmt>)
    | IfElse(condition: Expr, thenBody: seq<Stmt>, elseBody: seq<Stmt>)
    | InfLoop(body: seq<Stmt>)
    | ForLoop(loopVar: VariableRef, start: Expr, stop: Expr, body: seq<Stmt>)
    | ForeachLoop(loopVar: VariableRef, items: Expr, body: seq<Stmt>)
    | Repeat(times: Expr, body: seq<Stmt>)
    | UntilLoop(condition: Expr, body: seq<Stmt>)

  datatype MotionStmt =
    | SetX(value: Expr)
    | SetY(value: Expr)
    | ChangeX(delta: Expr)
    | ChangeY(delta: Expr)
    | Goto(target: Expr)
    | Forward(distance: Expr)
    | TurnRight(angle: Expr)
    | TurnLeft(angle: Expr)
    | SetHeading(value: Expr)
    | BounceOffEdge

  datatype LooksStmt =
    | SetCostume(costume: Option<Expr>)
    | SetVisible(visible: bool)
    | Say(content: Expr, duration: Option<Expr>)
    | Think(content: Expr, duration: Option<Expr>)
    | ChangeSize(delta: Expr)
    | SetSize(value: Expr)

  datatype PenStmt =
    | ChangePenSize(delta: Expr)
    | SetPenSize(value: Expr)
    | Stamp
    | Write(content: Expr, fontSize: Expr)
    | SetPenDown(down: bool)
    | PenClear
    | SetPenColor(color: Color)

  datatype ListStmt =
    | ListAssign(list: Expr, index: Expr, value: Expr)
    | ListInsertLast(list: Expr, value: Expr)
    | ListRemoveLast(list: Expr)
    | ListRemove(list: Expr, index: Expr)
    | ListRemoveAll(list: Expr)

  datatype MessageStmt =
    | SendLocalMessage(localTarget: Option<Expr>, msgType: Expr, waitReply: bool)
    | SendNetworkMessage(netTarget: Expr, msgName: string, values: seq<KwArg>)

  datatype WaitStmt =
    | WaitUntil(condition: Expr)
    | Sleep(seconds: Expr)

  /** An event binding. `OtherHat` stands for every hat kind the translator
      does not match (cloning, for one). */
  datatype HatKind =
    | OnFlag
    | OnKey(key: string)
    | MouseDown
    | MouseUp
    | ScrollDown
    | ScrollUp
    | When(condition: Expr)
    | LocalMessage(msgType: Option<string>)
    | NetworkMessage(msgName: string, fields: seq<VariableDef>)
    | OtherHat(name: string)

  datatype Hat = Hat(kind: HatKind, comment: Option<string>)

  datatype Script = Script(hat: Option<Hat>, stmts: seq<Stmt>)

  datatype Function = Function(transName: string, params: seq<VariableDef>, stmts: seq<Stmt>)

  /** A global or field declaration with its initial value. */
  datatype VarDecl = VarDecl(transName: string, init: Value)

  datatype Costume = Costume(transName: string, init: Value)

  datatype Entity = Entity(
    transName: string,
    activeCostume: Option<nat>,
    visible: bool,
    color: Color,
    pos: (Float, Float),
    heading: Float,
    scale: Float,
    costumes: seq<Costume>,
    fields: seq<VarDecl>,
    funcs: seq<Function>,
    scripts: seq<Script>)

  datatype Role = Role(
    name: string,
    stageSize: Option<(nat, nat)>,
    entities: seq<Entity>,
    globals: seq<VarDecl>,
    funcs: seq<Function>)

  datatype Project = Project(name: string, roles: seq<Role>)

  /** The translator's error taxonomy. `UnsupportedStmt` is part of it but
      no lowering produces it; parse errors belong to the parser and are
      not modelled. */
  datatype TranslateError =
    | NoRoles
    | UnsupportedExpr(expr: Expr)
    | UnsupportedStmt(stmt: Stmt)
    | UnsupportedHat(hat: Hat)
    | Upvars
    | AnyMessage
    | RingTypeQuery

  // The predicates below exclude the inputs on which the translator
  // panics instead of returning: image and reference literals, local sends
  // that wait or name a target, statement kinds it does not match,
  // non-text costumes and an active-costume index out of range. A part the
  // translator never lowers (the body of a script without a hat) is not
  // constrained; a part it would only reach after an earlier error is.

  predicate PlainValue(v: Value)
  {
    match v
    case Image(_) => false
    case Ref(_) => false
    case List(vs) => forall i :: 0 <= i < |vs| ==> PlainValue(vs[i])
    case _ => true
  }

  predicate PlainExpr(e: Expr)
  {
    match e
    case Literal(v) => PlainValue(v)
    case MakeList(vs) => forall i :: 0 <= i < |vs| ==> PlainExpr(vs[i])
    case Unary(_, a) => PlainExpr(a)
    case Binary(_, l, r) => PlainExpr(l) && PlainExpr(r)
    case Variadic(_, x) => PlainExpr(x)
    case Conditional(c, t, o) => PlainExpr(c) && PlainExpr(t) && PlainExpr(o)
    case TextSplit(t, m) => PlainExpr(t) && (m.Custom? ==> PlainExpr(m.sep))
    case TypeQuery(x, _) => PlainExpr(x)
    case CallRpc(_, _, kws) => forall i :: 0 <= i < |kws| ==> PlainExpr(kws[i].value)
    case CallFn(_, args, _) => forall i :: 0 <= i < |args| ==> PlainExpr(args[i])
    case _ => true
  }

  predicate PlainOpt(e: Option<Expr>)
  {
    e.Some? ==> PlainExpr(e.value)
  }

  predicate SupportedStmts(ss: seq<Stmt>)
  {
    forall i :: 0 <= i < |ss| ==> SupportedStmt(ss[i])
  }

  predicate SupportedStmt(s: Stmt)
  {
    match s.kind
    case DeclareLocals(_) => true
    case Assign(_, v) => PlainExpr(v)
    case AddAssign(_, v) => PlainExpr(v)
    case Control(c) => SupportedControl(c)
    case Motion(m) => SupportedMotion(m)
    case Looks(l) => SupportedLooks(l)
    case Pen(p) => SupportedPen(p)
    case ListOp(l) => SupportedList(l)
    case Message(m) => SupportedMessage(m)
    case Wait(w) => SupportedWait(w)
    case CallFn(_, args, _) => forall i :: 0 <= i < |args| ==> PlainExpr(args[i])
    case RunRpc(_, _, kws) => forall i :: 0 <= i < |kws| ==> PlainExpr(kws[i].value)
    case Return(v) => PlainExpr(v)
    case UnhandledStmt(_) => false
  }

  predicate SupportedControl(c: ControlStmt)
  {
    match c
    case Warp(b) => SupportedStmts(b)
    case If(x, t) => PlainExpr(x) && SupportedStmts(t)
    case IfElse(x, t, o) => PlainExpr(x) && SupportedStmts(t) && SupportedStmts(o)
    case InfLoop(b) => SupportedStmts(b)
    case ForLoop(_, a, z, b) => PlainExpr(a) && PlainExpr(z) && SupportedStmts(b)
    case ForeachLoop(_, xs, b) => PlainExpr(xs) && SupportedStmts(b)
    case Repeat(n, b) => PlainExpr(n) && SupportedStmts(b)
    case UntilLoop(x, b) => PlainExpr(x) && SupportedStmts(b)
  }

  predicate SupportedMotion(m: MotionStmt)
  {
    match m
    case SetX(v) => PlainExpr(v)
    case SetY(v) => PlainExpr(v)
    case ChangeX(d) => PlainExpr(d)
    case ChangeY(d) => PlainExpr(d)
    case Goto(t) => PlainExpr(t)
    case Forward(v) => PlainExpr(v)
    case TurnRight(v) => PlainExpr(v)
    case TurnLeft(v) => PlainExpr(v)
    case SetHeading(v) => PlainExpr(v)
    case BounceOffEdge => true
  }

  predicate SupportedLooks(l: LooksStmt)
  {
    match l
    case SetCostume(c) => PlainOpt(c)
    case SetVisible(_) => true
    case Say(c, d) => PlainExpr(c) && PlainOpt(d)
    case Think(c, d) => PlainExpr(c) && PlainOpt(d)
    case ChangeSize(d) => PlainExpr(d)
    case SetSize(v) => PlainExpr(v)
  }

  predicate SupportedPen(p: PenStmt)
  {
    match p
    case ChangePenSize(d) => PlainExpr(d)
    case SetPenSize(v) => PlainExpr(v)
    case Write(c, f) => PlainExpr(c) && PlainExpr(f)
    case _ => true
  }

  predicate SupportedList(l: ListStmt)
  {
    match l
    case ListAssign(x, i, v) => PlainExpr(x) && PlainExpr(i) && PlainExpr(v)
    case ListInsertLast(x, v) => PlainExpr(x) && PlainExpr(v)
    case ListRemoveLast(x) => PlainExpr(x)
    case ListRemove(x, i) => PlainExpr(x) && PlainExpr(i)
    case ListRemoveAll(x) => PlainExpr(x)
  }

  /** A local send that names a target or waits for the receivers is not
      matched by the translator. */
  predicate SupportedMessage(m: MessageStmt)
  {
    match m
    case SendLocalMessage(t, x, w) => t.None? && !w && PlainExpr(x)
    case SendNetworkMessage(t, _, kws) =>
      PlainExpr(t) && forall i :: 0 <= i < |kws| ==> PlainExpr(kws[i].value)
  }

  predicate SupportedWait(w: WaitStmt)
  {
    match w
    case WaitUntil(c) => PlainExpr(c)
    case Sleep(v) => PlainExpr(v)
  }

  predicate SupportedHat(h: Hat)
  {
    h.kind.When? ==> PlainExpr(h.kind.condition)
  }

  predicate SupportedFunctions(fs: seq<Function>)
  {
    forall i :: 0 <= i < |fs| ==> SupportedStmts(fs[i].stmts)
  }

  /** A script without a hat is skipped unread, so only a hatted script's
      hat and body are constrained. */
  predicate SupportedScript(s: Script)
  {
    s.hat.Some? ==> SupportedHat(s.hat.value) && SupportedStmts(s.stmts)
  }

  /** An entity the translator handles without panicking: string
      costumes, plain field initialisers and an active costume that
      indexes its costume list. */
  predicate SupportedEntity(e: Entity)
  {
    && (forall i :: 0 <= i < |e.costumes| ==> e.costumes[i].init.String?)
    && (forall i :: 0 <= i < |e.fields| ==> PlainValue(e.fields[i].init))
    && (e.activeCostume.Some? ==> e.activeCostume.value < |e.costumes|)
    && SupportedFunctions(e.funcs)
    && SupportedScripts(e.scripts)
  }

  /** Every script of the sequence is supported; stated head-and-tail so
      that recursive callers meet it syntactically (the quantified form is
      `AssemblyFacts.SupportedScriptsAll`). */
  predicate SupportedScripts(ss: seq<Script>)
    decreases |ss|
  {
    |ss| == 0 || (SupportedScript(ss[0]) && SupportedScripts(ss[1..]))
  }

  /** Every entity of the sequence is supported, head and tail. */
  predicate SupportedEntities(es: seq<Entity>)
    decreases |es|
  {
    |es| == 0 || (SupportedEntity(es[0]) && SupportedEntities(es[1..]))
  }

  /** A role without entities has no stage, which the translator may only
      need for globals and global functions. */
  predicate SupportedRole(r: Role)
  {
    && (|r.entities| == 0 ==> |r.globals| == 0 && |r.funcs| == 0)
    && SupportedEntities(r.entities)
    && (forall i :: 0 <= i < |r.globals| ==> PlainValue(r.globals[i].init))
    && SupportedFunctions(r.funcs)
  }

  /** Every role of the sequence is supported, head and tail. */
  predicate SupportedRoles(rs: seq<Role>)
    decreases |rs|
  {
    |rs| == 0 || (SupportedRole(rs[0]) && SupportedRoles(rs[1..]))
  }

  predicate SupportedProject(p: Project)
  {
    SupportedRoles(p.roles)
  }
}

=== FILE: expr_facts.dfy ===
/** Properties of value and expression lowering: what `wrap` adds and when,
    how variable references can be read back, the tag each form carries,
    the variadic peephole, keyword-argument grouping and the expression
    errors. */
module ExprFacts {
  import opened Wrappers
  import opened Text
  import opened Ast
  import opened Idents
  import opened Exprs

  // ---- wrap ----

  /** `wrap` leaves a text alone exactly when it is tagged `Wrapped`: a
      wrapped value is never wrapped twice, and an unknown one always is. */
  lemma WrapOnlyUnknown(x: Lowered)
    ensures Wrap(x) == x.0 <==> x.1 == Wrapped
  {
    if x.1 == Unknown {
      assert |Wrap(x)| == |x.0| + 11;
    }
  }

  /** The text inside a `snap.wrap(...)` call, or the text itself. */
  function Unwrap(s: string): string
  {
    if |s| >= 11 && s[..10] == "snap.wrap(" && s[|s| - 1] == ')' then s[10..|s| - 1] else s
  }

  /** Reading the wrapped text back gives the lowered text, whatever its
      tag. */
  lemma WrapRoundTrip(x: Lowered)
    requires x.1 == Unknown || Unwrap(x.0) == x.0
    ensures Unwrap(Wrap(x)) == x.0
  {
    if x.1 == Unknown {
      var s := Wrap(x);
      assert s[..10] == "snap.wrap(" && s[10..|s| - 1] == x.0;
    }
  }

  // ---- variables ----

  /** Reads a lowered variable reference back into its name and scope. */
  function DecodeVar(s: string): VariableRef
  {
    if |s| >= 5 && s[..5] == "self." then VariableRef(s[5..], Field)
    else if |s| >= 13 && s[..11] == "globals()['" && s[|s| - 2..] == "']" then VariableRef(s[11..|s| - 2], Global)
    else VariableRef(s, Local)
  }

  /** A variable whose Python name is an identifier is recovered from its
      lowering: locals are bare, fields are attributes of `self`, globals
      are looked up in `globals()`. */
  lemma VarRoundTrip(v: VariableRef)
    requires IsPyIdent(v.transName)
    ensures DecodeVar(TranslateVar(v)) == v
  {
    var s := TranslateVar(v);
    IsPyIdentIffShape(v.transName);
    match v.location
    case Local =>
      if |s| >= 5 {
        IdentHasNoPunctuation(v.transName, 4);
      }
      if |s| >= 13 {
        IdentHasNoPunctuation(v.transName, 7);
      }
    case Field =>
      assert s[..5] == "self." && s[5..] == v.transName;
    case Global =>
      assert s[..5] != "self." by { assert s[0] == 'g'; }
      assert s[..11] == "globals()['" && s[|s| - 2..] == "']" && s[11..|s| - 2] == v.transName;
  }

  /** Distinct variables with identifier names never lower to the same
      text. */
  lemma VarLoweringInjective(v: VariableRef, w: VariableRef)
    requires IsPyIdent(v.transName) && IsPyIdent(w.transName)
    requires TranslateVar(v) == TranslateVar(w)
    ensures v == w
  {
    VarRoundTrip(v);
    VarRoundTrip(w);
  }

  // ---- tags ----

  /** A literal list is written exactly as the list expression built from
      its elements: bracketed, comma-separated element texts, not wrapped,
      and never an error. */
  lemma ListLiteralAsMakeList(vs: seq<Value>, stage: string)
    requires forall i :: 0 <= i < |vs| ==> PlainValue(vs[i])
    ensures var es := seq(|vs|, i requires 0 <= i < |vs| => Literal(vs[i]));
      && TranslateExpr(Literal(List(vs)), stage) == TranslateExpr(MakeList(es), stage)
      && TranslateExpr(MakeList(es), stage).Ok?
      && TranslateExpr(MakeList(es), stage).value.1 == Unknown
      && TranslateExpr(MakeList(es), stage).value.0 ==
           "[" + Join(seq(|vs|, i requires 0 <= i < |vs| => TranslateValue(vs[i]).0), ", ") + "]"
  {
    var es := seq(|vs|, i requires 0 <= i < |vs| => Literal(vs[i]));
    assert PlainValue(List(vs));
    assert forall i :: 0 <= i < |es| ==> PlainExpr(es[i]) && Translatable(es[i]);
    var items := TranslateExprs(es, stage).value;
    assert forall i :: 0 <= i < |es| ==> items[i] == TranslateValue(vs[i]);
    var a := seq(|vs|, i requires 0 <= i < |vs| => TranslateValue(vs[i]).0);
    var b := seq(|items|, i requires 0 <= i < |items| => items[i].0);
    assert a == b;
  }

  /** References to variables, to the sprite itself and to other entities
      are already wrapped values. */
  lemma ReferencesWrapped(v: VariableRef, name: string, stage: string)
    ensures TranslateExpr(Variable(v), stage) == Ok((TranslateVar(v), Wrapped))
    ensures TranslateExpr(This, stage) == Ok(("self", Wrapped))
    ensures TranslateExpr(EntityRef(name), stage) == Ok((name, Wrapped))
  {
  }

  /** A one-operand form comes out `Unknown` exactly when it is a length:
      `len(...)` yields a plain Python int. */
  lemma UnaryTag(op: UnaryOp, a: Expr, stage: string)
    requires PlainExpr(a) && Translatable(a)
    ensures TranslateExpr(Unary(op, a), stage).Ok?
    ensures TranslateExpr(Unary(op, a), stage).value.1 == Unknown <==> op == ListLen || op == StrLen
  {
  }

  /** Every two-operand form is tagged `Wrapped`. */
  lemma BinaryTag(op: BinaryOp, l: Expr, r: Expr, stage: string)
    requires PlainExpr(l) && PlainExpr(r) && Translatable(l) && Translatable(r)
    ensures TranslateExpr(Binary(op, l, r), stage).Ok?
    ensures TranslateExpr(Binary(op, l, r), stage).value.1 == Wrapped
  {
  }

  /** A conditional is `Wrapped` exactly when both of its branches are; its
      branches are taken as they are and only the condition is wrapped. */
  lemma ConditionalTag(c: Expr, t: Expr, o: Expr, stage: string)
    requires PlainExpr(c) && PlainExpr(t) && PlainExpr(o)
    requires Translatable(c) && Translatable(t) && Translatable(o)
    ensures TranslateExpr(Conditional(c, t, o), stage).Ok?
    ensures TranslateExpr(Conditional(c, t, o), stage).value.1 == Wrapped <==>
      TranslateExpr(t, stage).value.1 == Wrapped && TranslateExpr(o, stage).value.1 == Wrapped
    ensures TranslateExpr(Conditional(c, t, o), stage).value.0 ==
      "(" + TranslateExpr(t, stage).value.0 + " if " + Wrap(TranslateExpr(c, stage).value)
      + " else " + TranslateExpr(o, stage).value.0 + ")"
  {
  }

  // ---- the variadic peephole ----

  /** A variadic operator applied to a literal list is lowered from the
      list's elements, never through a reduction call. */
  lemma VariadicOverLiteral(op: VariadicOp, vs: seq<Value>, stage: string)
    requires forall i :: 0 <= i < |vs| ==> PlainValue(vs[i])
    ensures PlainExpr(Variadic(op, Literal(List(vs))))
    ensures TranslateExpr(Variadic(op, Literal(List(vs))), stage) == Ok(VariadicLiteral(op, vs))
  {
  }

  /** Over an empty literal list each operator yields its identity element,
      and none of those is tagged `Wrapped`. */
  lemma VariadicEmptyIdentity(op: VariadicOp)
    ensures VariadicLiteral(op, []).1 == Unknown
    ensures VariadicLiteral(op, []).0 ==
      match op
      case Add => "0"
      case Mul => "1"
      case ListCat => "[]"
      case StrCat => "''"
  {
  }

  /** Over a non-empty literal list, sums and products are parenthesised
      chains tagged `Wrapped`, a string join is a parenthesised chain left
      `Unknown`, and list concatenation splats every element. */
  lemma VariadicChain(op: VariadicOp, vs: seq<Value>)
    requires |vs| > 0 && forall i :: 0 <= i < |vs| ==> PlainValue(vs[i])
    ensures VariadicLiteral(op, vs).1 == Wrapped <==> op == Add || op == Mul
    ensures op != ListCat ==> VariadicLiteral(op, vs).0[0] == '(' && VariadicLiteral(op, vs).0[|VariadicLiteral(op, vs).0| - 1] == ')'
    ensures op == ListCat ==> VariadicLiteral(op, vs).0[0] == '['
    ensures op == Add ==> VariadicLiteral(op, vs).0 == "(" + Join(WrappedTerms(vs), " + ") + ")"
    ensures op == Mul ==> VariadicLiteral(op, vs).0 == "(" + Join(WrappedTerms(vs), " * ") + ")"
    ensures op == StrCat ==> VariadicLiteral(op, vs).0 == "(" + Join(StrTerms(vs), " + ") + ")"
    ensures op == ListCat ==> VariadicLiteral(op, vs).0 == "[" + Join(SplatTerms(vs), ", ") + "]"
  {
  }

  /** The text of a wrapped value: a Python boolean, which is already a
      NetsBlox value, or a `snap.wrap(...)` call. */
  ghost predicate WrappedText(s: string)
  {
    s == "True" || s == "False" || (|s| >= 10 && s[..10] == "snap.wrap(")
  }

  /** Every literal value, once wrapped, is a boolean or a `snap.wrap` call. */
  lemma WrappedValue(v: Value)
    requires PlainValue(v)
    ensures WrappedText(Wrap(TranslateValue(v)))
    ensures v.Bool? ==> Wrap(TranslateValue(v)) == (if v.b then "True" else "False")
  {
    if !v.Bool? {
      var t := TranslateValue(v).0;
      assert Wrap(TranslateValue(v)) == "snap.wrap(" + t + ")";
      assert ("snap.wrap(" + t + ")")[..10] == "snap.wrap(";
    }
  }

  /** The chain elements of a literal list: one per element, in order; sums
      and products take every element wrapped, a string join stringifies
      every wrapped element, and list concatenation splats every element. */
  lemma ChainTerms(vs: seq<Value>)
    requires forall i :: 0 <= i < |vs| ==> PlainValue(vs[i])
    ensures |WrappedTerms(vs)| == |StrTerms(vs)| == |SplatTerms(vs)| == |vs|
    ensures forall i :: 0 <= i < |vs| ==>
      WrappedTerms(vs)[i] == Wrap(TranslateValue(vs[i])) && WrappedText(WrappedTerms(vs)[i])
    ensures forall i :: 0 <= i < |vs| ==> StrTerms(vs)[i] == "str(" + WrappedTerms(vs)[i] + ")"
    ensures forall i :: 0 <= i < |vs| ==> SplatTerms(vs)[i] == "*" + TranslateValue(vs[i]).0
  {
    forall i | 0 <= i < |vs|
      ensures WrappedText(WrappedTerms(vs)[i])
    {
      WrappedValue(vs[i]);
    }
  }

  /** Any other operand is lowered and handed to a reduction call. */
  lemma VariadicOverOther(op: VariadicOp, x: Expr, stage: string)
    requires PlainExpr(x) && Translatable(x)
    requires !(x.Literal? && x.value.List?)
    ensures TranslateExpr(Variadic(op, x), stage) == Ok(VariadicReduce(op, TranslateExpr(x, stage).value))
  {
  }

  // ---- comments ----

  /** A formatted comment never breaks its line: the source joins the
      comment's lines with ` -- `. */
  lemma FmtCommentOneLine(c: Option<string>)
    ensures '\n' !in FmtComment(c)
    ensures c.Some? ==> FmtComment(c)[..3] == " # "
    ensures c.None? <==> FmtComment(c) == ""
    ensures c.Some? && '\n' !in c.value ==> FmtComment(c) == " # " + c.value
    ensures c.Some? ==> |FmtComment(c)| == 3 + |c.value| + 3 * Count(c.value, '\n')
  {
    if c.Some? {
      ReplaceRemoves(c.value, '\n', " -- ");
      ReplaceLength(c.value, '\n', " -- ");
      if '\n' !in c.value {
        ReplaceUnchanged(c.value, '\n', " -- ");
      }
    }
  }

  /** A line break in a comment becomes ` -- ` in place, between the
      rendered text before it and the rendered text after it. */
  lemma FmtCommentLineBreak(a: string, b: string)
    ensures FmtComment(Some(a + "\n" + b)) == FmtComment(Some(a)) + " -- " + Replace(b, '\n', " -- ")
  {
    ReplaceAppend(a + "\n", b, '\n', " -- ");
    ReplaceAppend(a, "\n", '\n', " -- ");
    assert Replace("\n", '\n', " -- ") == " -- ";
  }

  // ---- keyword arguments ----

  /** The identifier entries of `pairs`, front to back. */
  function IdentGroup(pairs: seq<(string, string)>): seq<string>
  {
    if |pairs| == 0 then []
    else (if IsPyIdent(pairs[0].0) then [IdentEntry(pairs[0])] else []) + IdentGroup(pairs[1..])
  }

  /** The entries of `pairs` whose names are not identifiers, front to back. */
  function OtherGroup(pairs: seq<(string, string)>): seq<string>
  {
    if |pairs| == 0 then []
    else (if IsPyIdent(pairs[0].0) then [] else [OtherEntry(pairs[0])]) + OtherGroup(pairs[1..])
  }

  lemma {:induction false} GroupsSnoc(pairs: seq<(string, string)>, p: (string, string))
    ensures IdentGroup(pairs + [p]) == IdentGroup(pairs) + (if IsPyIdent(p.0) then [IdentEntry(p)] else [])
    ensures OtherGroup(pairs + [p]) == OtherGroup(pairs) + (if IsPyIdent(p.0) then [] else [OtherEntry(p)])
    decreases |pairs|
  {
    if |pairs| > 0 {
      assert (pairs + [p])[0] == pairs[0];
      assert (pairs + [p])[1..] == pairs[1..] + [p];
      GroupsSnoc(pairs[1..], p);
    }
  }

  /** The source's one-pass grouping keeps the relative order of the
      arguments within each group: it is the two order-preserving filters. */
  lemma {:induction false} PartitionIsFilter(pairs: seq<(string, string)>)
    ensures Partition(pairs) == (IdentGroup(pairs), OtherGroup(pairs))
    decreases |pairs|
  {
    if |pairs| > 0 {
      var init, last := pairs[..|pairs| - 1], pairs[|pairs| - 1];
      assert init + [last] == pairs;
      PartitionIsFilter(init);
      GroupsSnoc(init, last);
      assert Partition(pairs) == if IsPyIdent(last.0) then (Partition(init).0 + [IdentEntry(last)], Partition(init).1)
        else (Partition(init).0, Partition(init).1 + [OtherEntry(last)]);
      assert Partition(init).0 == IdentGroup(init) && Partition(init).1 == OtherGroup(init);
      assert IdentGroup(pairs) == IdentGroup(init + [last]);
      assert Partition(pairs).0 == IdentGroup(pairs);
      assert Partition(pairs).1 == OtherGroup(pairs);
    }
  }

  /** Every argument lands in exactly one group. */
  lemma {:induction false} PartitionSize(pairs: seq<(string, string)>)
    ensures |Partition(pairs).0| + |Partition(pairs).1| == |pairs|
    decreases |pairs|
  {
    if |pairs| > 0 {
      PartitionSize(pairs[..|pairs| - 1]);
    }
  }

  /** When every name is an identifier, all arguments are plain keyword
      arguments in their own order and no dictionary is splatted. */
  lemma {:induction false} AllIdentifiers(pairs: seq<(string, string)>)
    requires forall i :: 0 <= i < |pairs| ==> IsPyIdent(pairs[i].0)
    ensures IdentGroup(pairs) == seq(|pairs|, i requires 0 <= i < |pairs| => IdentEntry(pairs[i]))
    ensures OtherGroup(pairs) == []
    decreases |pairs|
  {
    if |pairs| > 0 {
      assert forall i :: 1 <= i < |pairs| ==> pairs[1..][i - 1] == pairs[i];
      AllIdentifiers(pairs[1..]);
    }
  }

  /** When no name is an identifier, all arguments go into the splatted
      dictionary in their own order. */
  lemma {:induction false} NoIdentifiers(pairs: seq<(string, string)>)
    requires forall i :: 0 <= i < |pairs| ==> !IsPyIdent(pairs[i].0)
    ensures IdentGroup(pairs) == []
    ensures OtherGroup(pairs) == seq(|pairs|, i requires 0 <= i < |pairs| => OtherEntry(pairs[i]))
    decreases |pairs|
  {
    if |pairs| > 0 {
      assert forall i :: 1 <= i < |pairs| ==> pairs[1..][i - 1] == pairs[i];
      NoIdentifiers(pairs[1..]);
    }
  }

  /** Keyword-argument text is empty, prefix included, exactly when there
      are no arguments. */
  lemma KwargsEmpty(kws: seq<KwArg>, prefix: string, wrapVals: bool, stage: string)
    requires forall i :: 0 <= i < |kws| ==> PlainExpr(kws[i].value)
    requires TranslateKwargs(kws, prefix, wrapVals, stage).Ok?
    ensures TranslateKwargs(kws, prefix, wrapVals, stage).value == "" <==> |kws| == 0
  {
    var vals := TranslateKwargValues(kws, stage).value;
    var pairs := KwPairs(kws, vals, wrapVals);
    var groups := Partition(pairs);
    PartitionSize(pairs);
    PartitionIsFilter(pairs);
    if |kws| > 0 {
      if |groups.0| > 0 {
        IdentGroupEntries(pairs);
        JoinNonEmpty(groups.0, ", ");
      }
    }
  }

  /** Every identifier entry is non-empty: it holds ` = `. */
  lemma {:induction false} IdentGroupEntries(pairs: seq<(string, string)>)
    ensures forall i :: 0 <= i < |IdentGroup(pairs)| ==> |IdentGroup(pairs)[i]| >= 3
    decreases |pairs|
  {
    if |pairs| > 0 {
      IdentGroupEntries(pairs[1..]);
    }
  }

  /** The three non-empty shapes, by the names of the arguments: only plain
      keyword arguments, only a splatted dictionary, or the plain ones first
      and the dictionary after them. */
  lemma KwargsShape(kws: seq<KwArg>, prefix: string, wrapVals: bool, stage: string)
    requires forall i :: 0 <= i < |kws| ==> PlainExpr(kws[i].value)
    requires TranslateKwargs(kws, prefix, wrapVals, stage).Ok?
    ensures var pairs := KwPairs(kws, TranslateKwargValues(kws, stage).value, wrapVals);
      var idents, others := IdentGroup(pairs), OtherGroup(pairs);
      TranslateKwargs(kws, prefix, wrapVals, stage).value ==
        if |idents| > 0 && |others| > 0 then prefix + Join(idents, ", ") + ", **{ " + Join(others, ", ") + " }"
        else if |idents| > 0 then prefix + Join(idents, ", ")
        else if |others| > 0 then prefix + "**{ " + Join(others, ", ") + " }"
        else ""
  {
    PartitionIsFilter(KwPairs(kws, TranslateKwargValues(kws, stage).value, wrapVals));
  }

  // ---- errors ----

  /** A call with upvars is refused before any argument is lowered. */
  lemma UpvarsRefused(f: FnRef, args: seq<Expr>, ups: seq<VariableRef>, stage: string)
    requires forall i :: 0 <= i < |args| ==> PlainExpr(args[i])
    requires |ups| > 0
    ensures TranslateExpr(Expr.CallFn(f, args, ups), stage) == Err(Upvars)
  {
  }

  /** A type query on a ring is refused before its operand is lowered. */
  lemma RingQueryRefused(x: Expr, ty: ValueType, stage: string)
    requires PlainExpr(x) && IsRing(ty)
    ensures TranslateExpr(TypeQuery(x, ty), stage) == Err(RingTypeQuery)
  {
  }

  /** An unmatched node is reported with the node itself. */
  lemma UnsupportedCarriesNode(kind: string, stage: string)
    ensures TranslateExpr(Unsupported(kind), stage) == Err(UnsupportedExpr(Unsupported(kind)))
  {
  }
}

=== FILE: exprs.dfy ===
/** Lowering of values and expressions to Python text (the expression half
    of `ScriptInfo` in src/lib.rs), with the two-point wrap lattice that
    decides where `snap.wrap(...)` must be inserted.

    Every lowering takes the stage's Python name: stage-level readings
    (mouse, size, GPS, drawings) are attribute reads on it. */
module Exprs {
  import opened Wrappers
  import opened Text
  import opened Ast
  import opened Idents

  /** `Wrapped`: the text denotes a runtime-wrapped value (or a bool, which
      the runtime cannot extend). `Unknown`: it must be wrapped before it
      is used where wrapped semantics are needed. */
  datatype Tag = Unknown | Wrapped

  type Lowered = (string, Tag)

  type Res<T> = Result<T, TranslateError>

  /** The comment suffix of an emitted line: empty, or ` # ` and the comment
      with each newline turned into ` -- `. */
  function FmtComment(comment: Option<string>): string
  {
    match comment
    case Some(v) => " # " + Replace(v, '\n', " -- ")
    case None => ""
  }

  function Wrap(val: Lowered): string
  {
    match val.1
    case Wrapped => val.0
    case Unknown => "snap.wrap(" + val.0 + ")"
  }

  /** A lowered operand, wrapped or taken as it is. */
  function Operand(val: Lowered, wrapped: bool): string
  {
    if wrapped then Wrap(val) else val.0
  }

  function TranslateVar(v: VariableRef): string
  {
    match v.location
    case Local => v.transName
    case Field => "self." + v.transName
    case Global => "globals()['" + v.transName + "']"
  }

  /** A literal value's text; only a boolean counts as already wrapped. */
  function TranslateValue(v: Value): (r: Lowered)
    requires PlainValue(v)
    ensures r.1 == Wrapped <==> v.Bool?
  {
    match v
    case String(s) => ("'" + Escape(s) + "'", Unknown)
    case Number(n) => (NumText(n), Unknown)
    case Bool(b) => (if b then "True" else "False", Wrapped)
    case Constant(c) => (if c == Pi then "math.pi" else "math.e", Unknown)
    case List(vs) =>
      ("[" + Join(seq(|vs|, i requires 0 <= i < |vs| => TranslateValue(vs[i]).0), ", ") + "]", Unknown)
    case Image(_) => assert false; ("", Unknown)
    case Ref(_) => assert false; ("", Unknown)
  }

  /** The element texts of a literal list, each wrapped. */
  function WrappedTerms(vs: seq<Value>): (r: seq<string>)
    requires forall i :: 0 <= i < |vs| ==> PlainValue(vs[i])
  {
    seq(|vs|, i requires 0 <= i < |vs| => Wrap(TranslateValue(vs[i])))
  }

  /** The element texts of a literal list of lists, each splatted. */
  function SplatTerms(vs: seq<Value>): (r: seq<string>)
    requires forall i :: 0 <= i < |vs| ==> PlainValue(vs[i])
  {
    seq(|vs|, i requires 0 <= i < |vs| => "*" + TranslateValue(vs[i]).0)
  }

  /** The element texts of a literal list of strings, each stringified. */
  function StrTerms(vs: seq<Value>): (r: seq<string>)
    requires forall i :: 0 <= i < |vs| ==> PlainValue(vs[i])
  {
    seq(|vs|, i requires 0 <= i < |vs| => "str(" + Wrap(TranslateValue(vs[i])) + ")")
  }

  /** Shape peephole of the variadic operators over a literal list: an infix
      chain of the elements, or the identity element for an empty list. */
  function VariadicLiteral(op: VariadicOp, vs: seq<Value>): Lowered
    requires forall i :: 0 <= i < |vs| ==> PlainValue(vs[i])
  {
    match op
    case Add => if |vs| == 0 then ("0", Unknown) else ("(" + Join(WrappedTerms(vs), " + ") + ")", Wrapped)
    case Mul => if |vs| == 0 then ("1", Unknown) else ("(" + Join(WrappedTerms(vs), " * ") + ")", Wrapped)
    case ListCat => ("[" + Join(SplatTerms(vs), ", ") + "]", Unknown)
    case StrCat => if |vs| == 0 then ("''", Unknown) else ("(" + Join(StrTerms(vs), " + ") + ")", Unknown)
  }

  /** The variadic operators over any other operand: a reduction call. */
  function VariadicReduce(op: VariadicOp, operand: Lowered): Lowered
  {
    match op
    case Add => ("sum(" + Wrap(operand) + ")", Unknown)
    case Mul => ("snap.prod(" + Wrap(operand) + ")", Wrapped)
    case ListCat => ("snap.append(" + operand.0 + ")", Unknown)
    case StrCat => ("''.join(" + Wrap(operand) + ")", Unknown)
  }

  /** The text around a one-operand form, whether its operand is wrapped,
      and the tag of the result. */
  datatype UnaryForm = UnaryForm(head: string, tail: string, wrapArg: bool, tag: Tag)

  function UnaryTemplate(op: UnaryOp): UnaryForm
  {
    match op
    case Neg => UnaryForm("-", "", true, Wrapped)
    case Not => UnaryForm("snap.lnot(", ")", false, Wrapped)
    case Abs => UnaryForm("abs(", ")", true, Wrapped)
    case Sign => UnaryForm("snap.sign(", ")", false, Wrapped)
    case Sqrt => UnaryForm("snap.sqrt(", ")", false, Wrapped)
    case Round => UnaryForm("round(", ")", true, Wrapped)
    case Floor => UnaryForm("math.floor(", ")", true, Wrapped)
    case Ceil => UnaryForm("math.ceil(", ")", true, Wrapped)
    case Sin => UnaryForm("snap.sin(", ")", false, Wrapped)
    case Cos => UnaryForm("snap.cos(", ")", false, Wrapped)
    case Tan => UnaryForm("snap.tan(", ")", false, Wrapped)
    case Asin => UnaryForm("snap.asin(", ")", false, Wrapped)
    case Acos => UnaryForm("snap.acos(", ")", false, Wrapped)
    case Atan => UnaryForm("snap.atan(", ")", false, Wrapped)
    case Min => UnaryForm("min(", ")", true, Wrapped)
    case Max => UnaryForm("max(", ")", true, Wrapped)
    case UnicodeToChar => UnaryForm("snap.get_chr(", ")", false, Wrapped)
    case CharToUnicode => UnaryForm("snap.get_ord(", ")", false, Wrapped)
    case ListLen => UnaryForm("len(", ")", false, Unknown)
    case StrLen => UnaryForm("len(", ")", false, Unknown)
    case ListGetRandom => UnaryForm("snap.choice(", ")", true, Wrapped)
    case ListGetLast => UnaryForm("", "[-1]", true, Wrapped)
    case ListCdr => UnaryForm("", ".all_but_first()", true, Wrapped)
    case ImageOfEntity => UnaryForm("", ".get_image()", false, Wrapped)
    case IsTouchingEntity => UnaryForm("self.is_touching(", ")", false, Wrapped)
  }

  /** The text around and between the two operands of a two-operand form,
      and which operands are wrapped. Every such form is tagged `Wrapped`. */
  datatype BinaryForm = BinaryForm(head: string, mid: string, tail: string, wrapLeft: bool, wrapRight: bool)

  function BinaryTemplate(op: BinaryOp): BinaryForm
  {
    match op
    case Sub => BinaryForm("(", " - ", ")", true, true)
    case Div => BinaryForm("(", " / ", ")", true, true)
    case Mod => BinaryForm("(", " % ", ")", true, true)
    case Pow => BinaryForm("(", " ** ", ")", true, true)
    case And => BinaryForm("(", " and ", ")", true, true)
    case Or => BinaryForm("(", " or ", ")", true, true)
    case Less => BinaryForm("(", " < ", ")", true, true)
    case LessEq => BinaryForm("(", " <= ", ")", true, true)
    case Eq => BinaryForm("(", " == ", ")", true, true)
    case Neq => BinaryForm("(", " != ", ")", true, true)
    case Greater => BinaryForm("(", " > ", ")", true, true)
    case GreaterEq => BinaryForm("(", " >= ", ")", true, true)
    case Atan2 => BinaryForm("snap.atan2(", ", ", ")", false, false)
    case Log => BinaryForm("snap.log(", ", ", ")", false, false)
    case Identical => BinaryForm("snap.identical(", ", ", ")", false, false)
    case Random => BinaryForm("snap.rand(", ", ", ")", false, false)
    case Range => BinaryForm("snap.srange(", ", ", ")", false, false)
    case ListFind => BinaryForm("", ".index(", ")", true, false)
    case ListGet => BinaryForm("", "[", "]", true, false)
  }

  function SensorText(s: Sensor, stage: string): Lowered
  {
    match s
    case XPos => ("self.x_pos", Unknown)
    case YPos => ("self.y_pos", Unknown)
    case Heading => ("self.heading", Unknown)
    case MouseX => (stage + ".mouse_pos[0]", Unknown)
    case MouseY => (stage + ".mouse_pos[1]", Unknown)
    case StageWidth => (stage + ".width", Unknown)
    case StageHeight => (stage + ".height", Unknown)
    case Latitude => (stage + ".gps_location[0]", Unknown)
    case Longitude => (stage + ".gps_location[1]", Unknown)
    case PenDown => ("self.drawing", Wrapped)
    case Size => ("(self.scale * 100)", Wrapped)
    case IsVisible => ("self.visible", Wrapped)
    case RpcError => ("(get_error() or '')", Unknown)
    case ImageOfDrawings => (stage + ".get_drawings()", Wrapped)
  }

  /** The call a fixed split mode lowers to, around the lowered text. */
  function SplitCall(m: SplitMode, text: string): string
    requires !m.Custom?
  {
    match m
    case LF => "snap.split(" + text + ", '\\n')"
    case CR => "snap.split(" + text + ", '\\r')"
    case Tab => "snap.split(" + text + ", '\\t')"
    case Letter => "snap.split(" + text + ", '')"
    case Word => "snap.split_words(" + text + ")"
    case Csv => "snap.split_csv(" + text + ")"
    case Json => "snap.split_json(" + text + ")"
    case Custom(_) => assert false; ""
  }

  /** Type queries on first-class code (rings) cannot be lowered. */
  predicate IsRing(ty: ValueType)
  {
    ty.CommandTy? || ty.ReporterTy? || ty.PredicateTy?
  }

  function TypeName(ty: ValueType): string
    requires !IsRing(ty)
  {
    match ty
    case BoolTy => "bool"
    case TextTy => "text"
    case NumberTy => "number"
    case ListTy => "list"
    case SpriteTy => "sprite"
    case CostumeTy => "costume"
    case SoundTy => "sound"
    case CommandTy => assert false; ""
    case ReporterTy => assert false; ""
    case PredicateTy => assert false; ""
  }

  /** `e` is `n` or contains it. */
  ghost predicate SubExpr(n: Expr, e: Expr)
  {
    n == e ||
    match e
    case MakeList(vs) => exists i :: 0 <= i < |vs| && SubExpr(n, vs[i])
    case Unary(_, a) => SubExpr(n, a)
    case Binary(_, l, r) => SubExpr(n, l) || SubExpr(n, r)
    case Variadic(_, x) => SubExpr(n, x)
    case Conditional(c, t, o) => SubExpr(n, c) || SubExpr(n, t) || SubExpr(n, o)
    case TextSplit(t, m) => SubExpr(n, t) || (m.Custom? && SubExpr(n, m.sep))
    case TypeQuery(x, _) => SubExpr(n, x)
    case CallRpc(_, _, kws) => exists i :: 0 <= i < |kws| && SubExpr(n, kws[i].value)
    case CallFn(_, args, _) => exists i :: 0 <= i < |args| && SubExpr(n, args[i])
    case _ => false
  }

  /** The expressions the translator can lower: no node it does not match,
      no type query on a ring, no call with upvars. */
  ghost predicate Translatable(e: Expr)
  {
    match e
    case MakeList(vs) => forall i :: 0 <= i < |vs| ==> Translatable(vs[i])
    case Unary(_, a) => Translatable(a)
    case Binary(_, l, r) => Translatable(l) && Translatable(r)
    case Variadic(_, x) => Translatable(x)
    case Conditional(c, t, o) => Translatable(c) && Translatable(t) && Translatable(o)
    case TextSplit(t, m) => Translatable(t) && (m.Custom? ==> Translatable(m.sep))
    case TypeQuery(x, ty) => !IsRing(ty) && Translatable(x)
    case CallRpc(_, _, kws) => forall i :: 0 <= i < |kws| ==> Translatable(kws[i].value)
    case CallFn(_, args, ups) => |ups| == 0 && forall i :: 0 <= i < |args| ==> Translatable(args[i])
    case Unsupported(_) => false
    case _ => true
  }

  /** The errors expression lowering can report: an unsupported node (which
      it carries), upvars, or a ring type query. */
  predicate ExprErrorKind(err: TranslateError)
  {
    err.Upvars? || err.RingTypeQuery? || (err.UnsupportedExpr? && err.expr.Unsupported?)
  }

  /** Expressions lowered without lowering any sub-expression. */
  predicate IsLeaf(e: Expr)
  {
    e.Literal? || e.Variable? || e.This? || e.EntityRef? || e.Sense?
  }

  predicate IsCall(e: Expr)
  {
    e.MakeList? || e.CallRpc? || e.CallFn?
  }

  function TranslateExpr(e: Expr, stage: string): (r: Res<Lowered>)
    requires PlainExpr(e)
    ensures r.Ok? <==> Translatable(e)
    ensures r.Err? ==> ExprErrorKind(r.error)
    ensures r.Err? && r.error.UnsupportedExpr? ==> SubExpr(r.error.expr, e)
    decreases e, 1
  {
    if e.Unsupported? then Err(UnsupportedExpr(e))
    else if IsLeaf(e) then Ok(LeafText(e, stage))
    else if IsCall(e) then TranslateCall(e, stage)
    else TranslateOperator(e, stage)
  }

  function LeafText(e: Expr, stage: string): Lowered
    requires IsLeaf(e) && PlainExpr(e)
  {
    match e
    case Literal(v) => TranslateValue(v)
    case Variable(v) => (TranslateVar(v), Wrapped)
    case This => ("self", Wrapped)
    case EntityRef(name) => (name, Wrapped)
    case Sense(s) => SensorText(s, stage)
  }

  /** List construction and calls: lowering of a sequence of operands. */
  function TranslateCall(e: Expr, stage: string): (r: Res<Lowered>)
    requires IsCall(e) && PlainExpr(e)
    ensures r.Ok? <==> Translatable(e)
    ensures r.Err? ==> ExprErrorKind(r.error)
    ensures r.Err? && r.error.UnsupportedExpr? ==> SubExpr(r.error.expr, e)
    decreases e, 0
  {
    match e
    case MakeList(vs) =>
      var items :- TranslateExprs(vs, stage);
      Ok(("[" + Join(seq(|items|, i requires 0 <= i < |items| => items[i].0), ", ") + "]", Unknown))
    case CallRpc(service, rpc, kws) =>
      var text :- TranslateRpc(service, rpc, kws, stage);
      Ok((text, Unknown))
    case CallFn(f, args, ups) =>
      if |ups| != 0 then Err(Upvars)
      else
        var text :- TranslateFnCall(f, args, stage);
        Ok((text, Wrapped))
  }

  /** Operators, conditionals, splits and type queries. */
  function TranslateOperator(e: Expr, stage: string): (r: Res<Lowered>)
    requires !IsLeaf(e) && !IsCall(e) && !e.Unsupported? && PlainExpr(e)
    ensures r.Ok? <==> Translatable(e)
    ensures r.Err? ==> ExprErrorKind(r.error)
    ensures r.Err? && r.error.UnsupportedExpr? ==> SubExpr(r.error.expr, e)
    decreases e, 0
  {
    match e
    case Unary(op, a) =>
      var x :- TranslateExpr(a, stage);
      var form := UnaryTemplate(op);
      Ok((form.head + Operand(x, form.wrapArg) + form.tail, form.tag))
    case Binary(op, left, right) =>
      var x :- TranslateExpr(left, stage);
      var y :- TranslateExpr(right, stage);
      var form := BinaryTemplate(op);
      Ok((form.head + Operand(x, form.wrapLeft) + form.mid + Operand(y, form.wrapRight) + form.tail, Wrapped))
    case Variadic(op, x) =>
      if x.Literal? && x.value.List? then
        assert PlainExpr(x);
        assert PlainValue(x.value);
        Ok(VariadicLiteral(op, x.value.values))
      else
        var y :- TranslateExpr(x, stage);
        Ok(VariadicReduce(op, y))
    case Conditional(c, t, o) =>
      var tt :- TranslateExpr(t, stage);
      var oo :- TranslateExpr(o, stage);
      var cc :- TranslateExpr(c, stage);
      Ok(("(" + tt.0 + " if " + Wrap(cc) + " else " + oo.0 + ")", if tt.1 == oo.1 then tt.1 else Unknown))
    case TextSplit(t, m) =>
      var tt :- TranslateExpr(t, stage);
      if m.Custom? then
        var sep :- TranslateExpr(m.sep, stage);
        Ok(("snap.split(" + tt.0 + ", " + sep.0 + ")", Wrapped))
      else Ok((SplitCall(m, tt.0), Wrapped))
    case TypeQuery(x, ty) =>
      if IsRing(ty) then Err(RingTypeQuery)
      else
        var xx :- TranslateExpr(x, stage);
        Ok(("snap.is_" + TypeName(ty) + "(" + xx.0 + ")", Wrapped))
  }

  /** Lowers `es` in order, stopping at the first error. */
  function TranslateExprs(es: seq<Expr>, stage: string): (r: Res<seq<Lowered>>)
    requires forall i :: 0 <= i < |es| ==> PlainExpr(es[i])
    ensures r.Ok? <==> forall i :: 0 <= i < |es| ==> Translatable(es[i])
    ensures r.Ok? ==> |r.value| == |es|
    ensures r.Ok? ==> forall i :: 0 <= i < |es| ==> TranslateExpr(es[i], stage) == Ok(r.value[i])
    ensures r.Err? ==> ExprErrorKind(r.error)
    ensures r.Err? && r.error.UnsupportedExpr? ==>
      exists i :: 0 <= i < |es| && SubExpr(r.error.expr, es[i])
    decreases es, 0
  {
    if |es| == 0 then Ok([])
    else
      var x :- TranslateExpr(es[0], stage);
      var rest :- TranslateExprs(es[1..], stage);
      assert forall i :: 1 <= i < |es| ==> es[i] == es[1..][i - 1];
      Ok([x] + rest)
  }

  /** Lowers the values of keyword arguments in order. */
  function TranslateKwargValues(kws: seq<KwArg>, stage: string): (r: Res<seq<Lowered>>)
    requires forall i :: 0 <= i < |kws| ==> PlainExpr(kws[i].value)
    ensures r.Ok? <==> forall i :: 0 <= i < |kws| ==> Translatable(kws[i].value)
    ensures r.Ok? ==> |r.value| == |kws|
    ensures r.Ok? ==> forall i :: 0 <= i < |kws| ==> TranslateExpr(kws[i].value, stage) == Ok(r.value[i])
    ensures r.Err? ==> ExprErrorKind(r.error)
    ensures r.Err? && r.error.UnsupportedExpr? ==>
      exists i :: 0 <= i < |kws| && SubExpr(r.error.expr, kws[i].value)
    decreases kws, 0
  {
    if |kws| == 0 then Ok([])
    else
      var x :- TranslateExpr(kws[0].value, stage);
      var rest :- TranslateKwargValues(kws[1..], stage);
      assert forall i :: 1 <= i < |kws| ==> kws[i] == kws[1..][i - 1];
      Ok([x] + rest)
  }

  /** `name = value` for a Python identifier. */
  function IdentEntry(p: (string, string)): string
  {
    p.0 + " = " + p.1
  }

  /** `'escaped name': value` for any other name. */
  function OtherEntry(p: (string, string)): string
  {
    "'" + Escape(p.0) + "': " + p.1
  }

  /** One pass over the (name, value text) pairs, pushing each onto the
      identifier group or the other group, as the source's loop does. */
  function Partition(pairs: seq<(string, string)>): (seq<string>, seq<string>)
  {
    if |pairs| == 0 then ([], [])
    else
      var groups := Partition(pairs[..|pairs| - 1]);
      var last := pairs[|pairs| - 1];
      if IsPyIdent(last.0) then (groups.0 + [IdentEntry(last)], groups.1)
      else (groups.0, groups.1 + [OtherEntry(last)])
  }

  /** The keyword-argument text from the two groups: one of three shapes,
      or nothing at all (and then no prefix either). */
  function KwargsText(groups: (seq<string>, seq<string>), prefix: string): string
  {
    var (idents, others) := groups;
    if |idents| > 0 && |others| > 0 then prefix + Join(idents, ", ") + ", **{ " + Join(others, ", ") + " }"
    else if |idents| > 0 then prefix + Join(idents, ", ")
    else if |others| > 0 then prefix + "**{ " + Join(others, ", ") + " }"
    else ""
  }

  /** Pairs each argument name with its value text. */
  function KwPairs(kws: seq<KwArg>, vals: seq<Lowered>, wrapVals: bool): (r: seq<(string, string)>)
    requires |vals| == |kws|
    ensures |r| == |kws|
  {
    seq(|kws|, i requires 0 <= i < |kws| => (kws[i].name, Operand(vals[i], wrapVals)))
  }

  function TranslateKwargs(kws: seq<KwArg>, prefix: string, wrapVals: bool, stage: string): (r: Res<string>)
    requires forall i :: 0 <= i < |kws| ==> PlainExpr(kws[i].value)
    ensures r.Ok? <==> forall i :: 0 <= i < |kws| ==> Translatable(kws[i].value)
    ensures r.Err? ==> ExprErrorKind(r.error)
    ensures r.Err? && r.error.UnsupportedExpr? ==>
      exists i :: 0 <= i < |kws| && SubExpr(r.error.expr, kws[i].value)
    decreases kws, 1
  {
    var vals :- TranslateKwargValues(kws, stage);
    Ok(KwargsText(Partition(KwPairs(kws, vals, wrapVals)), prefix))
  }

  function TranslateRpc(service: string, rpc: string, kws: seq<KwArg>, stage: string): (r: Res<string>)
    requires forall i :: 0 <= i < |kws| ==> PlainExpr(kws[i].value)
    ensures r.Ok? <==> forall i :: 0 <= i < |kws| ==> Translatable(kws[i].value)
    ensures r.Err? ==> ExprErrorKind(r.error)
    ensures r.Err? && r.error.UnsupportedExpr? ==>
      exists i :: 0 <= i < |kws| && SubExpr(r.error.expr, kws[i].value)
    decreases kws, 2
  {
    var args :- TranslateKwargs(kws, ", ", false, stage);
    Ok("nothrow(nb.call)('" + Escape(service) + "', '" + Escape(rpc) + "'" + args + ")")
  }

  function TranslateFnCall(f: FnRef, args: seq<Expr>, stage: string): (r: Res<string>)
    requires forall i :: 0 <= i < |args| ==> PlainExpr(args[i])
    ensures r.Ok? <==> forall i :: 0 <= i < |args| ==> Translatable(args[i])
    ensures r.Err? ==> ExprErrorKind(r.error)
    ensures r.Err? && r.error.UnsupportedExpr? ==>
      exists i :: 0 <= i < |args| && SubExpr(r.error.expr, args[i])
    decreases args, 1
  {
    var items :- TranslateExprs(args, stage);
    var list := Join(seq(|items|, i requires 0 <= i < |items| => Wrap(items[i])), ", ");
    match f.location
    case GlobalFn => Ok(f.transName + "(" + list + ")")
    case MethodFn => Ok("self." + f.transName + "(" + list + ")")
  }
}

=== FILE: hats.dfy ===
/** Lowering of a script's hat block to the decorated handler header its
    body is indented under (`SpriteInfo::translate_hat` in src/lib.rs).
    The handler of the `n`-th script a sprite keeps is numbered `n + 1`;
    the numbering is what keeps the handlers of one sprite apart. */
module Hats {
  import opened Wrappers
  import opened Text
  import opened Ast
  import opened Exprs

  /** The hats the translator can lower: a matched kind, a local message
      with a message type, and a translatable condition. */
  ghost predicate HatTranslatable(h: Hat)
  {
    match h.kind
    case OtherHat(_) => false
    case LocalMessage(m) => m.Some?
    case When(c) => Translatable(c)
    case _ => true
  }

  /** The errors a script's translation can report: those of its
      expressions, a local message hat without a message type, and a hat
      kind the translator does not match. */
  predicate ScriptErrorKind(err: TranslateError)
  {
    ExprErrorKind(err) || err.AnyMessage? || err.UnsupportedHat?
  }

  /** The name stem of the handler method whose body is the script. */
  function HandlerStem(k: HatKind): string
    requires !k.OtherHat?
  {
    match k
    case OnFlag => "my_onstart_"
    case OnKey(_) => "my_onkey_"
    case When(_) => "my_oncondition"
    case LocalMessage(_) => "my_on_message_"
    case NetworkMessage(_, _) => "my_on_message_"
    case _ => "my_onmouse_"
  }

  /** The handler of the `n`-th collected script. */
  function HandlerName(k: HatKind, n: nat): string
    requires !k.OtherHat?
  {
    HandlerStem(k) + Decimal(n + 1)
  }

  function HandlerParams(k: HatKind): string
  {
    if k.MouseDown? || k.MouseUp? || k.ScrollDown? || k.ScrollUp? then "(self, x, y)"
    else if k.LocalMessage? || k.NetworkMessage? then "(self, **kwargs)"
    else "(self)"
  }

  /** A network message handler starts by binding each message field,
      wrapped, to its local variable. */
  function FieldLines(fields: seq<VariableDef>): string
  {
    if |fields| == 0 then ""
    else "    " + fields[0].transName + " = snap.wrap(kwargs['" + Escape(fields[0].name) + "'])\n" + FieldLines(fields[1..])
  }

  function Prologue(k: HatKind): string
  {
    if k.NetworkMessage? && |k.fields| > 0 then FieldLines(k.fields) + "\n" else ""
  }

  /** The `def` line of the handler and the prologue the body follows. */
  function HandlerDef(k: HatKind, n: nat): string
    requires !k.OtherHat?
  {
    "def " + HandlerName(k, n) + HandlerParams(k) + ":\n" + Prologue(k)
  }

  /** A `When` hat polls its condition from a start handler of its own and
      calls the condition handler whenever it holds. */
  function Poller(comment: string, idx: string, condition: string): string
  {
    "@onstart()" + comment + "\ndef my_onstart" + idx + "(self):\n"
    + "    while True:\n"
    + "        try:\n"
    + "            time.sleep(0.05)\n"
    + "            if " + condition + ":\n"
    + "                self.my_oncondition" + idx + "()\n"
    + "        except Exception as e:\n"
    + "            import traceback, sys\n"
    + "            print(traceback.format_exc(), file = sys.stderr)\n"
  }

  predicate EndsWith(s: string, t: string)
  {
    |t| <= |s| && s[|s| - |t|..] == t
  }

  /** The hats bound directly to a user event: the green flag, a key, and
      the mouse and wheel events. */
  predicate DirectEvent(k: HatKind)
  {
    k.OnFlag? || k.OnKey? || k.MouseDown? || k.MouseUp? || k.ScrollDown? || k.ScrollUp?
  }

  /** The decorator call binding a handler to its user event. */
  function EventCall(k: HatKind): string
    requires DirectEvent(k)
  {
    match k
    case OnFlag => "@onstart()"
    case OnKey(key) => "@onkey('" + key + "')"
    case MouseDown => "@onmouse('down')"
    case MouseUp => "@onmouse('up')"
    case ScrollDown => "@onmouse('scroll-down')"
    case ScrollUp => "@onmouse('scroll-up')"
  }

  /** The hats bound to a message: a network message, or a local message
      with a message type. */
  predicate MessageEvent(k: HatKind)
  {
    (k.LocalMessage? && k.msgType.Some?) || k.NetworkMessage?
  }

  /** The message a handler receives: a local message type is put in the
      `local::` namespace; both names are escaped. */
  function MessageKey(k: HatKind): string
    requires MessageEvent(k)
  {
    if k.LocalMessage? then "local::" + Escape(k.msgType.value) else Escape(k.msgName)
  }

  /** The decorator line(s) that bind the handler to its event; a `When`
      hat's poller comes with it. */
  function Decorator(h: Hat, n: nat, stage: string): (r: Res<string>)
    requires SupportedHat(h)
    ensures r.Ok? <==> HatTranslatable(h)
    ensures h.kind.OtherHat? ==> r == Err(UnsupportedHat(h))
    ensures h.kind == LocalMessage(None) ==> r == Err(AnyMessage)
    ensures r.Err? && h.kind.When? ==> ExprErrorKind(r.error)
    ensures r.Err? ==> ScriptErrorKind(r.error)
    ensures r.Ok? ==> |r.value| > 0 && r.value[0] == '@'
  {
    var c := FmtComment(h.comment);
    match h.kind
    case When(cond) =>
      var x :- TranslateExpr(cond, stage);
      Ok(Poller(c, Decimal(n + 1), Wrap(x)))
    case LocalMessage(m) =>
      if m.Some? then Ok("@nb.on_message('" + MessageKey(h.kind) + "')" + c + "\n")
      else Err(AnyMessage)
    case NetworkMessage(_, _) => Ok("@nb.on_message('" + MessageKey(h.kind) + "')" + c + "\n")
    case OtherHat(_) => Err(UnsupportedHat(h))
    case _ => Ok(EventCall(h.kind) + c + "\n")
  }

  /** The event each hat binds its handler to, followed by the hat's
      comment: the green flag to `@onstart()`, a key to `@onkey`, the
      mouse buttons and the wheel to the four `@onmouse` modes, and
      message hats to `@nb.on_message` of the (namespaced, escaped)
      message. */
  lemma DecoratorEvents(h: Hat, n: nat, stage: string)
    requires SupportedHat(h)
    ensures var c := FmtComment(h.comment);
      && (h.kind.OnFlag? ==> Decorator(h, n, stage) == Ok("@onstart()" + c + "\n"))
      && (h.kind.OnKey? ==> Decorator(h, n, stage) == Ok("@onkey('" + h.kind.key + "')" + c + "\n"))
      && (h.kind.MouseDown? ==> Decorator(h, n, stage) == Ok("@onmouse('down')" + c + "\n"))
      && (h.kind.MouseUp? ==> Decorator(h, n, stage) == Ok("@onmouse('up')" + c + "\n"))
      && (h.kind.ScrollDown? ==> Decorator(h, n, stage) == Ok("@onmouse('scroll-down')" + c + "\n"))
      && (h.kind.ScrollUp? ==> Decorator(h, n, stage) == Ok("@onmouse('scroll-up')" + c + "\n"))
      && (h.kind.LocalMessage? && h.kind.msgType.Some? ==>
            Decorator(h, n, stage) == Ok("@nb.on_message('local::" + Escape(h.kind.msgType.value) + "')" + c + "\n"))
      && (h.kind.NetworkMessage? ==>
            Decorator(h, n, stage) == Ok("@nb.on_message('" + Escape(h.kind.msgName) + "')" + c + "\n"))
  {
    if h.kind.LocalMessage? && h.kind.msgType.Some? {
      assert "@nb.on_message('" + MessageKey(h.kind) == "@nb.on_message('local::" + Escape(h.kind.msgType.value);
    }
  }

  /** Distinct user events get distinct decorator calls. */
  lemma EventCallsDistinct(k1: HatKind, k2: HatKind)
    requires DirectEvent(k1) && DirectEvent(k2)
    ensures EventCall(k1) == EventCall(k2) <==> k1 == k2
  {
    var a, b := EventCall(k1), EventCall(k2);
    if a == b {
      if k1.OnKey? && k2.OnKey? {
        AffixCancel("@onkey('", k1.key, k2.key, "')");
      } else {
        assert a[3] == b[3];
        assert |a| > 17 && |b| > 17 ==> a[10] == b[10] && a[17] == b[17];
      }
    }
  }

  /** Two translatable hats other than `When` with the same comment get the
      same decorator exactly when they bind the same user event, or the
      same message. */
  lemma {:induction false} DecoratorsBindEvents(h1: Hat, n1: nat, h2: Hat, n2: nat, stage: string)
    requires SupportedHat(h1) && SupportedHat(h2) && HatTranslatable(h1) && HatTranslatable(h2)
    requires !h1.kind.When? && !h2.kind.When? && h1.comment == h2.comment
    ensures Decorator(h1, n1, stage) == Decorator(h2, n2, stage) <==>
      (DirectEvent(h1.kind) && DirectEvent(h2.kind) && h1.kind == h2.kind)
      || (MessageEvent(h1.kind) && MessageEvent(h2.kind) && MessageKey(h1.kind) == MessageKey(h2.kind))
  {
    var a, b := DecoratorHead(h1.kind), DecoratorHead(h2.kind);
    DecoratorHeadThen(h1, n1, stage);
    DecoratorHeadThen(h2, n2, stage);
    AffixCancel([], a, b, FmtComment(h1.comment) + "\n");
    HeadsDistinct(h1.kind, h2.kind);
  }

  lemma HeadsDistinct(k1: HatKind, k2: HatKind)
    requires (DirectEvent(k1) || MessageEvent(k1)) && (DirectEvent(k2) || MessageEvent(k2))
    ensures DecoratorHead(k1) == DecoratorHead(k2) <==>
      (DirectEvent(k1) && DirectEvent(k2) && k1 == k2)
      || (MessageEvent(k1) && MessageEvent(k2) && MessageKey(k1) == MessageKey(k2))
  {
    var a, b := DecoratorHead(k1), DecoratorHead(k2);
    if DirectEvent(k1) && DirectEvent(k2) {
      EventCallsDistinct(k1, k2);
    } else if MessageEvent(k1) && MessageEvent(k2) {
      AffixCancel("@nb.on_message('", MessageKey(k1), MessageKey(k2), "')");
    } else {
      assert a[1] != b[1];
    }
  }

  /** What a non-`When` decorator writes before the comment. */
  function DecoratorHead(k: HatKind): string
    requires DirectEvent(k) || MessageEvent(k)
  {
    if DirectEvent(k) then EventCall(k) else "@nb.on_message('" + MessageKey(k) + "')"
  }

  lemma DecoratorHeadThen(h: Hat, n: nat, stage: string)
    requires SupportedHat(h) && (DirectEvent(h.kind) || MessageEvent(h.kind))
    ensures Decorator(h, n, stage) == Ok([] + DecoratorHead(h.kind) + (FmtComment(h.comment) + "\n"))
  {
    assert [] + DecoratorHead(h.kind) + (FmtComment(h.comment) + "\n") == DecoratorHead(h.kind) + FmtComment(h.comment) + "\n";
  }

  function TranslateHat(h: Hat, n: nat, stage: string): (r: Res<string>)
    requires SupportedHat(h)
    ensures r.Ok? <==> HatTranslatable(h)
    ensures h.kind.OtherHat? ==> r == Err(UnsupportedHat(h))
    ensures h.kind == LocalMessage(None) ==> r == Err(AnyMessage)
    ensures r.Err? && h.kind.When? ==> ExprErrorKind(r.error)
    ensures r.Err? ==> ScriptErrorKind(r.error)
    ensures r.Ok? ==> |r.value| > 0 && r.value[0] == '@' && EndsWith(r.value, HandlerDef(h.kind, n))
  {
    var decorator :- Decorator(h, n, stage);
    Ok(decorator + HandlerDef(h.kind, n))
  }

  /** A `When` hat is a poller followed by the condition handler it calls:
      the poller tests the wrapped condition and calls
      `self.my_oncondition<idx>()`, which is exactly the handler defined
      after it. */
  lemma WhenHatPolls(h: Hat, n: nat, stage: string)
    requires h.kind.When? && PlainExpr(h.kind.condition) && Translatable(h.kind.condition)
    ensures TranslateHat(h, n, stage) ==
      Ok(Poller(FmtComment(h.comment), Decimal(n + 1), Wrap(TranslateExpr(h.kind.condition, stage).value))
         + ("def " + HandlerName(h.kind, n) + "(self):\n"))
    ensures HandlerName(h.kind, n) == "my_oncondition" + Decimal(n + 1)
  {
    WhenDecorator(h, n, stage);
    assert HandlerDef(h.kind, n) == "def " + HandlerName(h.kind, n) + "(self):\n";
  }

  lemma WhenDecorator(h: Hat, n: nat, stage: string)
    requires h.kind.When? && PlainExpr(h.kind.condition) && Translatable(h.kind.condition)
    ensures Decorator(h, n, stage) ==
      Ok(Poller(FmtComment(h.comment), Decimal(n + 1), Wrap(TranslateExpr(h.kind.condition, stage).value)))
  {
  }

  /** The start handler of a `When` poller never has the name of a
      green-flag handler: after `my_onstart` the poller's name goes on with
      a digit, a green-flag handler's with `_`. */
  lemma PollerNameFree(n: nat, m: nat)
    ensures "my_onstart" + Decimal(n) != HandlerName(OnFlag, m)
  {
    var a, b := "my_onstart" + Decimal(n), HandlerName(OnFlag, m);
    assert a[10] == Decimal(n)[0] && b[10] == '_';
  }

  /** The first character where the handler stems differ: every stem starts
      with `my_on` and the next character tells the families apart. */
  lemma StemsDiffer(k1: HatKind, k2: HatKind)
    requires !k1.OtherHat? && !k2.OtherHat?
    ensures |HandlerStem(k1)| > 5 && |HandlerStem(k2)| > 5
    ensures HandlerStem(k1) != HandlerStem(k2) ==> HandlerStem(k1)[5] != HandlerStem(k2)[5]
  {
  }

  /** Two handlers have the same name only when they come from the same
      family of hats and from the same script position: the handlers a
      sprite's scripts define never clash. */
  lemma {:induction false} HandlerNamesDistinct(k1: HatKind, n1: nat, k2: HatKind, n2: nat)
    requires !k1.OtherHat? && !k2.OtherHat?
    requires HandlerName(k1, n1) == HandlerName(k2, n2)
    ensures n1 == n2 && HandlerStem(k1) == HandlerStem(k2)
  {
    var s1, s2 := HandlerStem(k1), HandlerStem(k2);
    var a, b := HandlerName(k1, n1), HandlerName(k2, n2);
    StemsDiffer(k1, k2);
    assert a[5] == s1[5] && b[5] == s2[5];
    assert s1 == s2;
    assert a[|s1|..] == Decimal(n1 + 1) && b[|s2|..] == Decimal(n2 + 1);
    DecimalInjective(n1 + 1, n2 + 1);
  }
}

=== FILE: idents.dfy ===
/** `is_py_ident`: whether a keyword-argument name may be written as a
    Python keyword argument. The source matches it against the anchored
    regular expression `^[_a-zA-Z][_a-zA-Z0-9]*$`; the model runs the
    three-state automaton of that expression and proves it accepts exactly
    the strings of the expected shape. */
module Idents {

  predicate IsIdentStart(c: char)
  {
    c == '_' || 'a' <= c <= 'z' || 'A' <= c <= 'Z'
  }

  predicate IsIdentChar(c: char)
  {
    IsIdentStart(c) || '0' <= c <= '9'
  }

  /** The language of the expression, position by position. */
  predicate IdentShape(s: string)
  {
    |s| > 0 && IsIdentStart(s[0]) && forall i :: 1 <= i < |s| ==> IsIdentChar(s[i])
  }

  /** States of the automaton: nothing read yet, a valid identifier read so
      far, or a character seen that no match can follow. */
  datatype State = Start | InIdent | Dead

  function Step(st: State, c: char): State
  {
    match st
    case Start => if IsIdentStart(c) then InIdent else Dead
    case InIdent => if IsIdentChar(c) then InIdent else Dead
    case Dead => Dead
  }

  function Run(st: State, s: string): State
    decreases |s|
  {
    if |s| == 0 then st else Run(Step(st, s[0]), s[1..])
  }

  /** The anchored match: the whole of `sym` drives the automaton from
      `Start` into its accepting state. */
  predicate IsPyIdent(sym: string)
  {
    Run(Start, sym) == InIdent
  }

  lemma {:induction false} RunDead(s: string)
    ensures Run(Dead, s) == Dead
  {
    if |s| > 0 {
      RunDead(s[1..]);
    }
  }

  lemma {:induction false} RunInIdent(s: string)
    ensures Run(InIdent, s) == InIdent <==> forall i :: 0 <= i < |s| ==> IsIdentChar(s[i])
  {
    if |s| > 0 {
      if IsIdentChar(s[0]) {
        RunInIdent(s[1..]);
        assert forall i :: 1 <= i < |s| ==> s[i] == s[1..][i - 1];
      } else {
        RunDead(s[1..]);
      }
    }
  }

  /** The automaton accepts exactly the strings that start with a letter or
      underscore and continue with letters, digits and underscores. */
  lemma IsPyIdentIffShape(s: string)
    ensures IsPyIdent(s) <==> IdentShape(s)
  {
    if |s| > 0 {
      if IsIdentStart(s[0]) {
        RunInIdent(s[1..]);
        assert forall i :: 1 <= i < |s| ==> s[i] == s[1..][i - 1];
      } else {
        RunDead(s[1..]);
      }
    }
  }

  /** The examples of the source's own identifier test. */
  lemma IdentExamples()
    ensures IsPyIdent("fooBar_23")
    ensures !IsPyIdent("34hello")
    ensures !IsPyIdent("hello world")
  {
    var a, b, c := "fooBar_23", "34hello", "hello world";
    IsPyIdentIffShape(a);
    assert forall i :: 1 <= i < |a| ==> IsIdentChar(a[i]);
    IsPyIdentIffShape(b);
    assert !IsIdentStart(b[0]);
    IsPyIdentIffShape(c);
    assert !IsIdentChar(c[5]);
  }

  /** An identifier has no character outside `[_a-zA-Z0-9]`: no dot, no
      bracket, no quote. */
  lemma IdentHasNoPunctuation(s: string, i: int)
    requires IsPyIdent(s) && 0 <= i < |s|
    ensures IsIdentChar(s[i])
  {
    IsPyIdentIffShape(s);
  }
}

=== FILE: stmt_facts.dfy ===
/** Properties of statement lowering: how many entries a sequence yields,
    the `pass` of an empty body, the wrapped right-hand sides of
    assignments and returns, the indentation of compound bodies, and the
    statement-level upvars error. */
module StmtFacts {
  import opened Wrappers
  import opened Text
  import opened Ast
  import opened Exprs
  import opened Stmts

  /** The number of entries a sequence contributes, counted from the
      statements alone: one per declared variable, one per other
      statement. */
  function EntryCount(ss: seq<Stmt>): nat
  {
    if |ss| == 0 then 0
    else (if ss[0].kind.DeclareLocals? then |ss[0].kind.vars| else 1) + EntryCount(ss[1..])
  }

  lemma SupportedTail(ss: seq<Stmt>)
    requires |ss| > 0 && SupportedStmts(ss)
    ensures SupportedStmt(ss[0]) && SupportedStmts(ss[1..])
  {
    assert forall i :: 1 <= i < |ss| ==> ss[1..][i - 1] == ss[i];
  }

  lemma TranslatableTail(ss: seq<Stmt>)
    requires |ss| > 0 && AllTranslatable(ss)
    ensures StmtTranslatable(ss[0]) && AllTranslatable(ss[1..])
  {
    assert forall i :: 1 <= i < |ss| ==> ss[1..][i - 1] == ss[i];
  }

  /** The entries of a translatable sequence are exactly as many as its
      statements promise: declarations are split into one line per
      variable, nothing else is split or dropped. */
  lemma {:induction false} StmtLinesCount(ss: seq<Stmt>, stage: string)
    requires SupportedStmts(ss) && AllTranslatable(ss)
    ensures StmtLines(ss, stage).Ok?
    ensures |StmtLines(ss, stage).value| == EntryCount(ss)
    decreases |ss|
  {
    if |ss| > 0 {
      SupportedTail(ss);
      TranslatableTail(ss);
      StmtLinesCount(ss[1..], stage);
    }
  }

  /** A non-empty body is its entries joined by newlines. */
  lemma StmtsJoined(ss: seq<Stmt>, stage: string)
    requires SupportedStmts(ss) && AllTranslatable(ss) && |ss| > 0
    ensures StmtLines(ss, stage).Ok?
    ensures TranslateStmts(ss, stage) == Ok(Join(StmtLines(ss, stage).value, "\n"))
  {
  }

  /** The entries of a body are those of its first statement, then those
      of the rest. */
  lemma StmtLinesCons(ss: seq<Stmt>, stage: string)
    requires SupportedStmts(ss) && AllTranslatable(ss) && |ss| > 0
    ensures SupportedStmt(ss[0]) && SupportedStmts(ss[1..]) && AllTranslatable(ss[1..])
    ensures StmtEntry(ss[0], stage).Ok? && StmtLines(ss[1..], stage).Ok?
    ensures |StmtEntry(ss[0], stage).value| == EntryCount(ss[..1])
    ensures StmtLines(ss, stage).value == StmtEntry(ss[0], stage).value + StmtLines(ss[1..], stage).value
  {
    SupportedTail(ss);
    TranslatableTail(ss);
    var first, rest := StmtEntry(ss[0], stage), StmtLines(ss[1..], stage);
    assert !first.IsFailure() && !rest.IsFailure();
    assert ss[..1][1..] == [];
  }

  /** Statement `i` is supported and translatable, and its entries sit in
      the body's entries right after those of the statements before it. */
  ghost predicate EntriesAt(ss: seq<Stmt>, stage: string, i: nat)
  {
    && SupportedStmts(ss) && AllTranslatable(ss) && i < |ss|
    && SupportedStmt(ss[i]) && StmtEntry(ss[i], stage).Ok? && StmtLines(ss, stage).Ok?
    && EntriesPlaced(StmtLines(ss, stage).value, EntryCount(ss[..i]), StmtEntry(ss[i], stage).value)
  }

  /** `entries` occur in `lines` from position `at` on. */
  ghost predicate EntriesPlaced(lines: seq<string>, at: nat, entries: seq<string>)
  {
    at + |entries| <= |lines| && forall k :: 0 <= k < |entries| ==> lines[at + k] == entries[k]
  }

  /** The entries of statement `i` of a translatable body come, in order,
      right after the entries of the statements before it. */
  lemma StmtEntriesInPlace(ss: seq<Stmt>, stage: string, i: nat)
    requires SupportedStmts(ss) && AllTranslatable(ss) && i < |ss|
    ensures SupportedStmt(ss[i]) && StmtEntry(ss[i], stage).Ok? && StmtLines(ss, stage).Ok?
    ensures var lines, at, entries := StmtLines(ss, stage).value, EntryCount(ss[..i]), StmtEntry(ss[i], stage).value;
      at + |entries| <= |lines| && forall k :: 0 <= k < |entries| ==> lines[at + k] == entries[k]
  {
    EntriesAtAny(ss, stage, i);
  }

  lemma {:induction false} EntriesAtAny(ss: seq<Stmt>, stage: string, i: nat)
    requires SupportedStmts(ss) && AllTranslatable(ss) && i < |ss|
    ensures EntriesAt(ss, stage, i)
    decreases |ss|
  {
    StmtLinesCons(ss, stage);
    StmtLinesCount(ss[1..], stage);
    if i == 0 {
      assert ss[..0] == [];
    } else {
      EntriesAtAny(ss[1..], stage, i - 1);
      EntriesAtNext(ss, stage, i);
    }
  }

  /** A later statement's entries sit one first entry-group further on. */
  lemma EntriesAtNext(ss: seq<Stmt>, stage: string, i: nat)
    requires SupportedStmts(ss) && AllTranslatable(ss) && 0 < i < |ss|
    requires SupportedStmt(ss[0]) && SupportedStmts(ss[1..]) && AllTranslatable(ss[1..])
    requires StmtEntry(ss[0], stage).Ok? && StmtLines(ss[1..], stage).Ok?
    requires |StmtEntry(ss[0], stage).value| == EntryCount(ss[..1])
    requires StmtLines(ss, stage).value == StmtEntry(ss[0], stage).value + StmtLines(ss[1..], stage).value
    requires EntriesAt(ss[1..], stage, i - 1)
    ensures EntriesAt(ss, stage, i)
  {
    assert ss[1..][i - 1] == ss[i];
    EntryCountSplit(ss, i);
  }

  /** The statements before `i` count the first one's entries, then those
      of the others before `i`. */
  lemma EntryCountSplit(ss: seq<Stmt>, i: nat)
    requires 0 < i <= |ss|
    ensures EntryCount(ss[..i]) == EntryCount(ss[..1]) + EntryCount(ss[1..][..i - 1])
  {
    assert ss[..i][1..] == ss[1..][..i - 1];
    assert ss[..1][1..] == [];
  }

  /** An empty body lowers to `pass`; a body whose statements contribute
      no entry (only empty declarations) lowers to the empty text. */
  lemma EmptyBodies(ss: seq<Stmt>, stage: string)
    requires SupportedStmts(ss) && AllTranslatable(ss)
    ensures |ss| == 0 ==> TranslateStmts(ss, stage) == Ok("pass")
    ensures |ss| > 0 && EntryCount(ss) == 0 ==> TranslateStmts(ss, stage) == Ok("")
  {
    StmtLinesCount(ss, stage);
  }

  /** A declaration is one line per variable, each bound to the wrapped
      zero; its comment is not emitted. */
  lemma DeclarationLines(vars: seq<VariableDef>, comment: Option<string>, stage: string)
    ensures StmtEntry(Stmt(DeclareLocals(vars), comment), stage) == Ok(DeclLines(vars))
    ensures |DeclLines(vars)| == |vars|
    ensures forall i :: 0 <= i < |vars| ==> DeclLines(vars)[i] == vars[i].transName + " = snap.wrap(0)"
  {
  }

  /** An assignment always wraps its right-hand side, and ends with the
      statement's comment. */
  lemma AssignWrapped(v: VariableRef, e: Expr, comment: Option<string>, stage: string)
    requires PlainExpr(e) && Translatable(e)
    ensures StmtEntry(Stmt(Assign(v, e), comment), stage) ==
      Ok([TranslateVar(v) + " = " + Wrap(TranslateExpr(e, stage).value) + FmtComment(comment)])
  {
  }

  /** So does an addition to a variable. */
  lemma AddAssignWrapped(v: VariableRef, e: Expr, comment: Option<string>, stage: string)
    requires PlainExpr(e) && Translatable(e)
    ensures StmtEntry(Stmt(AddAssign(v, e), comment), stage) ==
      Ok([TranslateVar(v) + " += " + Wrap(TranslateExpr(e, stage).value) + FmtComment(comment)])
  {
  }

  /** And so does a return. */
  lemma ReturnWrapped(e: Expr, comment: Option<string>, stage: string)
    requires PlainExpr(e) && Translatable(e)
    ensures StmtEntry(Stmt(Return(e), comment), stage) ==
      Ok(["return " + Wrap(TranslateExpr(e, stage).value) + FmtComment(comment)])
  {
  }

  /** A function-call statement with upvars is refused. */
  lemma UpvarsStatement(f: FnRef, args: seq<Expr>, ups: seq<VariableRef>, comment: Option<string>, stage: string)
    requires forall i :: 0 <= i < |args| ==> PlainExpr(args[i])
    requires |ups| > 0
    ensures StmtEntry(Stmt(StmtKind.CallFn(f, args, ups), comment), stage) == Err(Upvars)
  {
  }

  /** A `Goto` whose target is a literal pair moves to the pair written
      out from its two values, and can never fail. */
  lemma GotoPair(a: Value, b: Value, comment: Option<string>, stage: string)
    requires PlainValue(a) && PlainValue(b)
    ensures StmtEntry(Stmt(Motion(Goto(Literal(List([a, b])))), comment), stage) ==
      Ok(["self.pos = (" + TranslateValue(a).0 + ", " + TranslateValue(b).0 + ")" + FmtComment(comment)])
  {
    var t := Literal(List([a, b]));
    assert PlainValue(t.value);
  }

  /** The six hexadecimal digits of a written colour read back as its
      red, green and blue bytes. */
  lemma ColorHexDigits(col: Color)
    ensures var t := ColorHex(col);
      && |t| == 7 && t[0] == '#'
      && (forall k :: 1 <= k < 7 ==> t[k] in "0123456789abcdef")
      && HexValue(t[1]) * 16 + HexValue(t[2]) == col.r as nat
      && HexValue(t[3]) * 16 + HexValue(t[4]) == col.g as nat
      && HexValue(t[5]) * 16 + HexValue(t[6]) == col.b as nat
  {
    var hr, hg, hb := Hex2(col.r as nat), Hex2(col.g as nat), Hex2(col.b as nat);
    var t := ColorHex(col);
    assert t[1..3] == hr && t[3..5] == hg && t[5..7] == hb;
  }

  /** A pen colour statement assigns the quoted `#rrggbb` text of the
      colour, followed by the comment. */
  lemma PenColorLine(col: Color, comment: Option<string>, stage: string)
    ensures StmtEntry(Stmt(Pen(SetPenColor(col)), comment), stage)
      == Ok(["self.pen_color = '" + ColorHex(col) + "'" + FmtComment(comment)])
  {
  }

  /** `Think` is lowered exactly as `Say`. */
  lemma ThinkAsSay(content: Expr, duration: Option<Expr>, comment: Option<string>, stage: string)
    requires PlainExpr(content) && PlainOpt(duration)
    ensures StmtEntry(Stmt(Looks(Think(content, duration)), comment), stage)
      == StmtEntry(Stmt(Looks(Say(content, duration)), comment), stage)
  {
  }

  /** A local message with a literal message type is sent under the
      `local::` prefix without lowering the type as an expression. */
  lemma LocalMessageLiteral(name: string, comment: Option<string>, stage: string)
    ensures StmtEntry(Stmt(Message(SendLocalMessage(None, Literal(String(name)), false)), comment), stage)
      == Ok(["nb.send_message('local::" + Escape(name) + "')" + FmtComment(comment)])
  {
  }

  /** A compound statement is its header line followed by its body, with
      four spaces at the start of every body line and no line added or
      removed. */
  lemma BlockIndented(header: string, body: seq<Stmt>, stage: string)
    requires SupportedStmts(body) && AllTranslatable(body)
    ensures Block(header, body, stage).Ok?
    ensures var r := Block(header, body, stage).value;
      var code := TranslateStmts(body, stage).value;
      && r[..|header| + 1] == header + "\n"
      && r[|header| + 1..] == Indent(code)
      && "    " <= r[|header| + 1..]
      && NewlinesIndented(r[|header| + 1..])
      && Count(r[|header| + 1..], '\n') == Count(code, '\n')
  {
    var code := TranslateStmts(body, stage).value;
    var r := Block(header, body, stage).value;
    assert r == header + "\n" + Indent(code);
    assert r[|header| + 1..] == Indent(code);
    IndentedLines(code);
  }
}

=== FILE: stmts.dfy ===
/** Lowering of statement sequences to blocks of Python text (the
    statement half of `ScriptInfo` in src/lib.rs). A sequence is the
    newline-joined entries of its statements; a compound statement puts its
    header line first and its indented body below it. */
module Stmts {
  import opened Wrappers
  import opened Text
  import opened Ast
  import opened Exprs

  /** The statements the translator can lower: every expression in them is
      translatable and no function call has upvars. */
  ghost predicate StmtTranslatable(s: Stmt)
  {
    match s.kind
    case DeclareLocals(_) => true
    case Assign(_, v) => Translatable(v)
    case AddAssign(_, v) => Translatable(v)
    case Control(c) => ControlTranslatable(c)
    case Motion(m) => MotionTranslatable(m)
    case Looks(l) => LooksTranslatable(l)
    case Pen(p) => PenTranslatable(p)
    case ListOp(l) => ListTranslatable(l)
    case Message(m) => MessageTranslatable(m)
    case Wait(w) => WaitTranslatable(w)
    case CallFn(_, args, ups) => |ups| == 0 && forall i :: 0 <= i < |args| ==> Translatable(args[i])
    case RunRpc(_, _, kws) => forall i :: 0 <= i < |kws| ==> Translatable(kws[i].value)
    case Return(v) => Translatable(v)
    case UnhandledStmt(_) => false
  }

  ghost predicate AllTranslatable(ss: seq<Stmt>)
  {
    forall i :: 0 <= i < |ss| ==> StmtTranslatable(ss[i])
  }

  ghost predicate ControlTranslatable(c: ControlStmt)
  {
    match c
    case Warp(b) => AllTranslatable(b)
    case If(x, t) => Translatable(x) && AllTranslatable(t)
    case IfElse(x, t, o) => Translatable(x) && AllTranslatable(t) && AllTranslatable(o)
    case InfLoop(b) => AllTranslatable(b)
    case ForLoop(_, a, z, b) => Translatable(a) && Translatable(z) && AllTranslatable(b)
    case ForeachLoop(_, xs, b) => Translatable(xs) && AllTranslatable(b)
    case Repeat(n, b) => Translatable(n) && AllTranslatable(b)
    case UntilLoop(x, b) => Translatable(x) && AllTranslatable(b)
  }

  ghost predicate MotionTranslatable(m: MotionStmt)
  {
    match m
    case SetX(v) => Translatable(v)
    case SetY(v) => Translatable(v)
    case ChangeX(d) => Translatable(d)
    case ChangeY(d) => Translatable(d)
    case Goto(t) => Translatable(t)
    case Forward(v) => Translatable(v)
    case TurnRight(v) => Translatable(v)
    case TurnLeft(v) => Translatable(v)
    case SetHeading(v) => Translatable(v)
    case BounceOffEdge => true
  }

  ghost predicate LooksTranslatable(l: LooksStmt)
  {
    match l
    case SetCostume(c) => c.Some? ==> Translatable(c.value)
    case SetVisible(_) => true
    case Say(c, d) => Translatable(c) && (d.Some? ==> Translatable(d.value))
    case Think(c, d) => Translatable(c) && (d.Some? ==> Translatable(d.value))
    case ChangeSize(d) => Translatable(d)
    case SetSize(v) => Translatable(v)
  }

  ghost predicate PenTranslatable(p: PenStmt)
  {
    match p
    case ChangePenSize(d) => Translatable(d)
    case SetPenSize(v) => Translatable(v)
    case Write(c, f) => Translatable(c) && Translatable(f)
    case _ => true
  }

  ghost predicate ListTranslatable(l: ListStmt)
  {
    match l
    case ListAssign(x, i, v) => Translatable(x) && Translatable(i) && Translatable(v)
    case ListInsertLast(x, v) => Translatable(x) && Translatable(v)
    case ListRemoveLast(x) => Translatable(x)
    case ListRemove(x, i) => Translatable(x) && Translatable(i)
    case ListRemoveAll(x) => Translatable(x)
  }

  ghost predicate MessageTranslatable(m: MessageStmt)
  {
    match m
    case SendLocalMessage(_, x, _) => Translatable(x)
    case SendNetworkMessage(t, _, kws) =>
      Translatable(t) && forall i :: 0 <= i < |kws| ==> Translatable(kws[i].value)
  }

  ghost predicate WaitTranslatable(w: WaitStmt)
  {
    match w
    case WaitUntil(c) => Translatable(c)
    case Sleep(v) => Translatable(v)
  }

  function BoolText(b: bool): string
  {
    if b then "True" else "False"
  }

  /** `DeclareLocals`: one line per declared variable, each starting at the
      wrapped zero. */
  function DeclLines(vars: seq<VariableDef>): seq<string>
  {
    seq(|vars|, i requires 0 <= i < |vars| => vars[i].transName + " = snap.wrap(0)")
  }

  /** A one-line statement around one lowered expression. */
  function ExprLine(prefix: string, e: Expr, wrapped: bool, suffix: string, stage: string): (r: Res<string>)
    requires PlainExpr(e)
    ensures r.Ok? <==> Translatable(e)
    ensures r.Err? ==> ExprErrorKind(r.error)
  {
    var x :- TranslateExpr(e, stage);
    Ok(prefix + Operand(x, wrapped) + suffix)
  }

  function TranslateStmts(ss: seq<Stmt>, stage: string): (r: Res<string>)
    requires SupportedStmts(ss)
    ensures r.Ok? <==> AllTranslatable(ss)
    ensures r.Err? ==> ExprErrorKind(r.error)
    decreases ss, 1
  {
    if |ss| == 0 then Ok("pass")
    else
      var lines :- StmtLines(ss, stage);
      Ok(Join(lines, "\n"))
  }

  /** The entries of `ss` in order, stopping at the first error. */
  function StmtLines(ss: seq<Stmt>, stage: string): (r: Res<seq<string>>)
    requires SupportedStmts(ss)
    ensures r.Ok? <==> AllTranslatable(ss)
    ensures r.Err? ==> ExprErrorKind(r.error)
    decreases ss, 0
  {
    if |ss| == 0 then Ok([])
    else
      var first :- StmtEntry(ss[0], stage);
      var rest :- StmtLines(ss[1..], stage);
      assert forall i :: 1 <= i < |ss| ==> ss[i] == ss[1..][i - 1];
      Ok(first + rest)
  }

  /** The entries one statement contributes: one line per variable for a
      declaration, exactly one (possibly spanning lines) for any other. */
  function StmtEntry(s: Stmt, stage: string): (r: Res<seq<string>>)
    requires SupportedStmt(s)
    ensures r.Ok? <==> StmtTranslatable(s)
    ensures r.Err? ==> ExprErrorKind(r.error)
    ensures r.Ok? && !s.kind.DeclareLocals? ==> |r.value| == 1
    decreases s, 4
  {
    if s.kind.DeclareLocals? then Ok(DeclLines(s.kind.vars))
    else if s.kind.Control? then
      var text :- ControlEntry(s.kind.control, FmtComment(s.comment), stage);
      Ok([text])
    else
      var text :- SimpleEntry(s, stage);
      Ok([text])
  }

  /** One-line statements, each followed by the comment. */
  function SimpleEntry(s: Stmt, stage: string): (r: Res<string>)
    requires SupportedStmt(s) && !s.kind.DeclareLocals? && !s.kind.Control?
    ensures r.Ok? <==> StmtTranslatable(s)
    ensures r.Err? ==> ExprErrorKind(r.error)
  {
    var c := FmtComment(s.comment);
    match s.kind
    case Assign(v, e) => ExprLine(TranslateVar(v) + " = ", e, true, c, stage)
    case AddAssign(v, e) => ExprLine(TranslateVar(v) + " += ", e, true, c, stage)
    case Motion(m) => MotionEntry(m, c, stage)
    case Looks(l) => LooksEntry(l, c, stage)
    case Pen(p) => PenEntry(p, c, stage)
    case ListOp(l) => ListEntry(l, c, stage)
    case Message(m) => MessageEntry(m, c, stage)
    case Wait(w) => WaitEntry(w, c, stage)
    case CallFn(f, args, ups) =>
      if |ups| != 0 then Err(Upvars)
      else
        var call :- TranslateFnCall(f, args, stage);
        Ok(call + c)
    case RunRpc(service, rpc, kws) =>
      var call :- TranslateRpc(service, rpc, kws, stage);
      Ok(call + c)
    case Return(v) => ExprLine("return ", v, true, c, stage)
    case UnhandledStmt(_) => assert false; Ok("")
  }

  /** The body of a compound statement, indented below its header line. */
  function Block(header: string, body: seq<Stmt>, stage: string): (r: Res<string>)
    requires SupportedStmts(body)
    ensures r.Ok? <==> AllTranslatable(body)
    ensures r.Err? ==> ExprErrorKind(r.error)
    decreases body, 2
  {
    var code :- TranslateStmts(body, stage);
    Ok(header + "\n" + Indent(code))
  }

  function ControlEntry(ctl: ControlStmt, c: string, stage: string): (r: Res<string>)
    requires SupportedControl(ctl)
    ensures r.Ok? <==> ControlTranslatable(ctl)
    ensures r.Err? ==> ExprErrorKind(r.error)
    decreases ctl, 3
  {
    match ctl
    case Warp(b) => Block("with Warp():" + c, b, stage)
    case If(cond, t) =>
      var x :- TranslateExpr(cond, stage);
      Block("if " + Wrap(x) + ":" + c, t, stage)
    case IfElse(cond, t, o) =>
      var x :- TranslateExpr(cond, stage);
      var thenCode :- TranslateStmts(t, stage);
      var elseCode :- TranslateStmts(o, stage);
      Ok("if " + Wrap(x) + ":" + c + "\n" + Indent(thenCode) + "\nelse:\n" + Indent(elseCode))
    case InfLoop(b) => Block("while True:" + c, b, stage)
    case ForLoop(v, a, z, b) =>
      var start :- TranslateExpr(a, stage);
      var stop :- TranslateExpr(z, stage);
      Block("for " + v.transName + " in snap.sxrange(" + start.0 + ", " + stop.0 + "):" + c, b, stage)
    case ForeachLoop(v, xs, b) =>
      var items :- TranslateExpr(xs, stage);
      Block("for " + v.transName + " in " + Wrap(items) + ":" + c, b, stage)
    case Repeat(n, b) =>
      var times :- TranslateExpr(n, stage);
      Block("for _ in range(+" + Wrap(times) + "):" + c, b, stage)
    case UntilLoop(cond, b) =>
      var x :- TranslateExpr(cond, stage);
      Block("while not " + Wrap(x) + ":" + c, b, stage)
  }

  function MotionEntry(m: MotionStmt, c: string, stage: string): (r: Res<string>)
    requires SupportedMotion(m)
    ensures r.Ok? <==> MotionTranslatable(m)
    ensures r.Err? ==> ExprErrorKind(r.error)
  {
    match m
    case SetX(v) => ExprLine("self.x_pos = ", v, false, c, stage)
    case SetY(v) => ExprLine("self.y_pos = ", v, false, c, stage)
    case ChangeX(d) => ExprLine("self.x_pos += ", d, false, c, stage)
    case ChangeY(d) => ExprLine("self.y_pos += ", d, false, c, stage)
    case Goto(t) =>
      if t.Literal? && t.value.List? && |t.value.values| == 2 then
        assert PlainValue(t.value);
        var vs := t.value.values;
        Ok("self.pos = (" + TranslateValue(vs[0]).0 + ", " + TranslateValue(vs[1]).0 + ")" + c)
      else ExprLine("self.pos = ", t, false, c, stage)
    case Forward(v) => ExprLine("self.forward(", v, false, ")" + c, stage)
    case TurnRight(v) => ExprLine("self.turn_right(", v, false, ")" + c, stage)
    case TurnLeft(v) => ExprLine("self.turn_left(", v, false, ")" + c, stage)
    case SetHeading(v) => ExprLine("self.heading = ", v, false, c, stage)
    case BounceOffEdge => Ok("self.keep_on_stage(bounce = True)" + c)
  }

  function LooksEntry(l: LooksStmt, c: string, stage: string): (r: Res<string>)
    requires SupportedLooks(l)
    ensures r.Ok? <==> LooksTranslatable(l)
    ensures r.Err? ==> ExprErrorKind(r.error)
  {
    match l
    case SetCostume(co) =>
      if co.Some? then ExprLine("self.costume = ", co.value, false, c, stage)
      else Ok("self.costume = None" + c)
    case SetVisible(b) => Ok("self.visible = " + BoolText(b) + c)
    case Say(content, d) => SayLine(content, d, c, stage)
    case Think(content, d) => SayLine(content, d, c, stage)
    case ChangeSize(d) => ExprLine("self.scale += ", d, false, c, stage)
    case SetSize(v) => ExprLine("self.scale = ", v, false, c, stage)
  }

  /** `Say` and `Think` both lower to the sprite's `say`, with the duration
      as a keyword argument when there is one. */
  function SayLine(content: Expr, duration: Option<Expr>, c: string, stage: string): (r: Res<string>)
    requires PlainExpr(content) && PlainOpt(duration)
    ensures r.Ok? <==> Translatable(content) && (duration.Some? ==> Translatable(duration.value))
    ensures r.Err? ==> ExprErrorKind(r.error)
  {
    if duration.Some? then
      var text :- TranslateExpr(content, stage);
      var secs :- TranslateExpr(duration.value, stage);
      Ok("self.say(str(" + text.0 + "), duration = " + secs.0 + ")" + c)
    else ExprLine("self.say(str(", content, false, "))" + c, stage)
  }

  /** A colour as `#rrggbb`; the alpha byte is not written. */
  function ColorHex(col: Color): string
  {
    "#" + Hex2(col.r as nat) + Hex2(col.g as nat) + Hex2(col.b as nat)
  }

  function PenEntry(p: PenStmt, c: string, stage: string): (r: Res<string>)
    requires SupportedPen(p)
    ensures r.Ok? <==> PenTranslatable(p)
    ensures r.Err? ==> ExprErrorKind(r.error)
  {
    match p
    case ChangePenSize(d) => ExprLine("self.pen_size += ", d, false, c, stage)
    case SetPenSize(v) => ExprLine("self.pen_size = ", v, false, c, stage)
    case Stamp => Ok("self.stamp()" + c)
    case Write(content, size) =>
      var text :- TranslateExpr(content, stage);
      var points :- TranslateExpr(size, stage);
      Ok("self.write(" + text.0 + ", size = " + points.0 + ")" + c)
    case SetPenDown(b) => Ok("self.drawing = " + BoolText(b) + c)
    case PenClear => Ok(stage + ".clear_drawings()" + c)
    case SetPenColor(col) =>
      Ok("self.pen_color = '" + ColorHex(col) + "'" + c)
  }

  function ListEntry(l: ListStmt, c: string, stage: string): (r: Res<string>)
    requires SupportedList(l)
    ensures r.Ok? <==> ListTranslatable(l)
    ensures r.Err? ==> ExprErrorKind(r.error)
  {
    match l
    case ListAssign(x, i, v) =>
      var list :- TranslateExpr(x, stage);
      var index :- TranslateExpr(i, stage);
      var value :- TranslateExpr(v, stage);
      Ok(Wrap(list) + "[" + index.0 + "] = " + value.0 + c)
    case ListInsertLast(x, v) =>
      var list :- TranslateExpr(x, stage);
      var value :- TranslateExpr(v, stage);
      Ok(Wrap(list) + ".append(" + Wrap(value) + ")" + c)
    case ListRemoveLast(x) => ExprLine("", x, true, ".pop()" + c, stage)
    case ListRemove(x, i) =>
      var list :- TranslateExpr(x, stage);
      var index :- TranslateExpr(i, stage);
      Ok("del " + Wrap(list) + "[" + index.0 + "]" + c)
    case ListRemoveAll(x) => ExprLine("", x, false, ".clear()" + c, stage)
  }

  function MessageEntry(m: MessageStmt, c: string, stage: string): (r: Res<string>)
    requires SupportedMessage(m)
    ensures r.Ok? <==> MessageTranslatable(m)
    ensures r.Err? ==> ExprErrorKind(r.error)
  {
    match m
    case SendLocalMessage(_, x, _) =>
      if x.Literal? && x.value.String? then Ok("nb.send_message('local::" + Escape(x.value.s) + "')" + c)
      else ExprLine("nb.send_message('local::' + str(", x, false, "))" + c, stage)
    case SendNetworkMessage(t, name, kws) =>
      var args :- TranslateKwargs(kws, ", ", false, stage);
      var target :- TranslateExpr(t, stage);
      Ok("nb.send_message('" + Escape(name) + "', " + target.0 + args + ")" + c)
  }

  function WaitEntry(w: WaitStmt, c: string, stage: string): (r: Res<string>)
    requires SupportedWait(w)
    ensures r.Ok? <==> WaitTranslatable(w)
    ensures r.Err? ==> ExprErrorKind(r.error)
  {
    match w
    case WaitUntil(cond) => ExprLine("while not ", cond, true, ":" + c + "\n    time.sleep(0.05)", stage)
    case Sleep(v) => ExprLine("time.sleep(+", v, true, ")" + c, stage)
  }
}

=== FILE: text.dfy ===
/** Text helpers the translator relies on: the separator join of
    `Punctuated`/`join`, the line indentation of `indent`, character
    replacement, decimal and two-digit hexadecimal rendering, and the two
    formatting functions whose output the model does not fix (string
    escaping and f64 display). */
module Text {

  /** An IEEE-754 binary64 number, kept as its bit pattern: the translator
      only ever prints numbers, it never computes with them. */
  datatype Float = Float(bits: bv64)

  /** Rust's `Display` rendering of an f64. Left uninterpreted: no property
      of the model depends on the digits it prints. */
  const NumText: Float -> string

  /** `escape` of the AST library, which quotes a string for a Python
      single-quoted literal. Left uninterpreted: every property proved here
      holds whatever it returns. */
  const Escape: string -> string

  /** `items` with `sep` between consecutive items. */
  function Join(items: seq<string>, sep: string): string
  {
    if |items| == 0 then ""
    else if |items| == 1 then items[0]
    else items[0] + sep + Join(items[1..], sep)
  }

  /** `s` with every occurrence of `c` replaced by `w`. */
  function Replace(s: string, c: char, w: string): string
  {
    if |s| == 0 then ""
    else (if s[0] == c then w else [s[0]]) + Replace(s[1..], c, w)
  }

  /** The number of occurrences of `c` in `s`. */
  function Count(s: string, c: char): nat
  {
    if |s| == 0 then 0
    else (if s[0] == c then 1 else 0) + Count(s[1..], c)
  }

  /** Four spaces in front of every line of `s`. */
  function Indent(s: string): string
  {
    "    " + Replace(s, '\n', "\n    ")
  }

  function Digit(d: nat): (c: char)
    requires d < 10
    ensures '0' <= c <= '9'
  {
    ('0' as int + d) as char
  }

  function DigitValue(c: char): nat
  {
    if '0' <= c <= '9' then (c as int - '0' as int) else 0
  }

  /** The decimal rendering of `n`, without sign or leading zeros. */
  function Decimal(n: nat): (r: string)
    ensures |r| > 0
    ensures forall i :: 0 <= i < |r| ==> '0' <= r[i] <= '9'
    ensures r[0] == '0' ==> n == 0
  {
    if n < 10 then [Digit(n)] else Decimal(n / 10) + [Digit(n % 10)]
  }

  /** The number a string of decimal digits denotes, read left to right. */
  function DecimalValue(s: string): nat
  {
    if |s| == 0 then 0 else DecimalValue(s[..|s| - 1]) * 10 + DigitValue(s[|s| - 1])
  }

  function HexDigit(d: nat): (c: char)
    requires d < 16
  {
    if d < 10 then ('0' as int + d) as char else ('a' as int + d - 10) as char
  }

  function HexValue(c: char): nat
  {
    if '0' <= c <= '9' then (c as int - '0' as int)
    else if 'a' <= c <= 'f' then (c as int - 'a' as int) + 10
    else 0
  }

  /** Rust's `{:02x}` of a byte: two lower-case hexadecimal digits. */
  function Hex2(b: nat): (r: string)
    requires b < 256
    ensures |r| == 2
    ensures r[0] in "0123456789abcdef" && r[1] in "0123456789abcdef"
    ensures HexValue(r[0]) * 16 + HexValue(r[1]) == b
  {
    [HexDigit(b / 16), HexDigit(b % 16)]
  }

  /** Replacing `c` by a text that does not contain `c` removes every `c`. */
  lemma {:induction false} ReplaceRemoves(s: string, c: char, w: string)
    requires c !in w
    ensures c !in Replace(s, c, w)
  {
    if |s| > 0 {
      ReplaceRemoves(s[1..], c, w);
    }
  }

  /** Each occurrence of `c` grows the text by `|w| - 1` characters. */
  lemma {:induction false} ReplaceLength(s: string, c: char, w: string)
    ensures |Replace(s, c, w)| == |s| + Count(s, c) * (|w| - 1)
  {
    if |s| > 0 {
      ReplaceLength(s[1..], c, w);
    }
  }

  /** A text without `c` is left as it is. */
  lemma {:induction false} ReplaceUnchanged(s: string, c: char, w: string)
    requires c !in s
    ensures Replace(s, c, w) == s
  {
    if |s| > 0 {
      assert s[1..] == s[|s[..1]|..];
      ReplaceUnchanged(s[1..], c, w);
      assert s == [s[0]] + s[1..];
    }
  }

  /** Replacing works piecewise: the pieces of a text are replaced on their
      own and put back together. */
  lemma {:induction false} ReplaceAppend(a: string, b: string, c: char, w: string)
    ensures Replace(a + b, c, w) == Replace(a, c, w) + Replace(b, c, w)
  {
    if |a| > 0 {
      assert (a + b)[1..] == a[1..] + b;
      ReplaceAppend(a[1..], b, c, w);
    } else {
      assert a + b == b;
    }
  }

  /** Every newline of `r` is followed by four spaces. */
  ghost predicate NewlinesIndented(r: string)
  {
    forall i :: 0 <= i < |r| && r[i] == '\n' ==> i + 5 <= |r| && r[i + 1..i + 5] == "    "
  }

  /** Every newline of `Replace(s, '\n', "\n    ")` is followed by four spaces. */
  lemma {:induction false} ReplaceNewlinesIndent(s: string)
    ensures NewlinesIndented(Replace(s, '\n', "\n    "))
  {
    if |s| > 0 {
      ReplaceNewlinesIndent(s[1..]);
      var head := if s[0] == '\n' then "\n    " else [s[0]];
      var rest := Replace(s[1..], '\n', "\n    ");
      var r := Replace(s, '\n', "\n    ");
      assert r == head + rest;
      assert r[|head|..] == rest;
      forall i | 0 <= i < |r| && r[i] == '\n'
        ensures i + 5 <= |r| && r[i + 1..i + 5] == "    "
      {
        if i >= |head| {
          var j := i - |head|;
          assert rest[j] == '\n';
          assert j + 5 <= |rest| && rest[j + 1..j + 5] == "    ";
          assert r[i + 1..i + 5] == r[|head|..][j + 1..j + 5];
        } else {
          assert s[0] == '\n' && i == 0;
          assert r[1..5] == head[1..5];
        }
      }
    }
  }

  /** `Indent` puts four spaces at the start of the text and after every
      newline, and keeps the number of lines. */
  lemma IndentedLines(s: string)
    ensures "    " <= Indent(s)
    ensures NewlinesIndented(Indent(s))
    ensures Count(Indent(s), '\n') == Count(s, '\n')
  {
    var body := Replace(s, '\n', "\n    ");
    ReplaceNewlinesIndent(s);
    var r := Indent(s);
    assert r == "    " + body;
    forall i | 0 <= i < |r| && r[i] == '\n'
      ensures i + 5 <= |r| && r[i + 1..i + 5] == "    "
    {
      var j := i - 4;
      assert body[j] == '\n';
      assert j + 5 <= |body| && body[j + 1..j + 5] == "    ";
      assert r[i + 1..i + 5] == body[j + 1..j + 5];
    }
    CountAppend("    ", body, '\n');
    CountReplaceNewlines(s);
  }

  lemma {:induction false} CountAppend(a: string, b: string, c: char)
    ensures Count(a + b, c) == Count(a, c) + Count(b, c)
  {
    if |a| > 0 {
      assert (a + b)[1..] == a[1..] + b;
      CountAppend(a[1..], b, c);
    } else {
      assert a + b == b;
    }
  }

  lemma {:induction false} CountReplaceNewlines(s: string)
    ensures Count(Replace(s, '\n', "\n    "), '\n') == Count(s, '\n')
  {
    if |s| > 0 {
      var head := if s[0] == '\n' then "\n    " else [s[0]];
      CountReplaceNewlines(s[1..]);
      CountAppend(head, Replace(s[1..], '\n', "\n    "), '\n');
      assert Count("    ", '\n') == 0;
      assert Count(head, '\n') == (if s[0] == '\n' then 1 else 0);
    }
  }

  /** Reading back the decimal rendering of `n` gives `n`. */
  lemma {:induction false} DecimalRoundTrip(n: nat)
    ensures DecimalValue(Decimal(n)) == n
  {
    var d := Decimal(n);
    if n < 10 {
      assert d[..0] == [];
    } else {
      DecimalRoundTrip(n / 10);
      assert d[..|d| - 1] == Decimal(n / 10);
    }
  }

  /** Different numbers render to different decimal texts. */
  lemma DecimalInjective(a: nat, b: nat)
    requires Decimal(a) == Decimal(b)
    ensures a == b
  {
    DecimalRoundTrip(a);
    DecimalRoundTrip(b);
  }

  /** Text between the same prefix and suffix is equal exactly when the
      whole texts are. */
  lemma AffixCancel(x: string, a: string, b: string, y: string)
    ensures x + a + y == x + b + y <==> a == b
  {
    if x + a + y == x + b + y {
      assert |a| == |b|;
      assert a == (x + a + y)[|x|..|x| + |a|];
      assert b == (x + b + y)[|x|..|x| + |b|];
    }
  }

  /** The joined text is non-empty when its first item is. */
  lemma JoinNonEmpty(items: seq<string>, sep: string)
    requires |items| > 0 && |items[0]| > 0
    ensures |Join(items, sep)| > 0
  {
  }
}

=== FILE: wrappers.dfy ===
/** Failure-compatible wrappers used by every lowering: the translator
    reports its errors as values, never by aborting. */
module Wrappers {

  /** An optional value (Rust's `Option`). */
  datatype Option<+T> = None | Some(value: T)

  /** Either a value or the first error met (Rust's `Result`), usable with `:-`. */
  datatype Result<+T, +E> = Ok(value: T) | Err(error: E) {

    predicate IsFailure() {
      Err?
    }

    function PropagateFailure<U>(): Result<U, E>
      requires Err?
    {
      Err(error)
    }

    function Extract(): T
      requires Ok?
    {
      value
    }
  }
}
